=== FILE: README.md ===
# BeeBee orchestrator — a Dafny model

BeeBee wraps a local large-language-model library in an event-emitting object.
This project models the logic it adds around that library:

- the **configuration builder** (`src/config.js`). Defaults are merged with user settings and a leading `~` in the model path is expanded. There are setters, and a validator checks six rules.
- the **model manager** (`src/model-manager.js`). It knows where the model file lives and whether it is there, and builds the info and download records sent with events.
- the **`BeeBee` object** (`src/index.js`). It covers the `initialize`/`dispose` lifecycle, chat sessions, the model-management listeners, the prompt builder, `prompt`, and the streaming accumulator of `promptStream`.

Modules, one concept each:

| file | module | models |
|---|---|---|
| `wrappers.dfy` | `Wrappers` | `Option`, `Result` |
| `values.dfy` | `Values` | JavaScript values: `undefined` for missing properties, truthiness, `\|\|`, number comparison with NaN, `String(v)` |
| `platform.dfy` | `Platform` | `os.homedir`, `path.join`, `path.dirname` and number formatting, as parameters |
| `config.dfy` | `Config` | `src/config.js` |
| `model_manager.dfy` | `ModelManager` | `src/model-manager.js` |
| `events.dfy` | `Events` | events, engine calls, callback invocations and their ordered log |
| `orchestrator.dfy` | `Orchestrator` | `BeeBee` state, constructor, `initialize`, `dispose`, `startNewChatSession`, the listeners |
| `prompting.dfy` | `Prompting` | `buildPrompt`, sampling options, `prompt`, `promptStream` |

Modelling choices:

- Settings and options objects are `map<string, Value>`. A missing key reads as `Undefined`, and `{...a, ...b}` is `a + b`. The validator compares with JavaScript's rules, so a setting that converts to NaN (`undefined`, non-numeric text) fails no range check. `Config.NaNSettingsPassValidation` states this.
- Each operation is a function or method of the current `BeeBee` state and of the outside world's answers. The answers are the file probe (`Disk`), the engine's load answers (`LoadAnswers`), its answers to the two `dispose` calls (`DisposeAnswers`), and its generation answer (a reply, or a sequence of token-callback deliveries then an outcome). The operation returns the next state, its result (a value or the thrown `Failure`) and an effect log. The log records, in order, every emitted event, every engine call that loads, opens, generates or disposes, the directory creation, and every invocation of the caller's `onToken` callback. The existence and size probes and the `detokenize` calls are not logged: they are read from the `Disk` snapshot and the `detokenize` parameter.
- `detokenize` is an uninterpreted function parameter. Home directory, `path.join`, `path.dirname` and `String(number)` are fields of `Platform.Host`.
- Three behaviours of the program that a reader might not expect:
  - The defaults have no `systemPrompt`, so with the defaults no system text is prepended.
  - `dispose()` keeps its context and model handles, so a second `dispose()` calls their `dispose` again. With the same engine answers the outcome repeats exactly (`Orchestrator.DisposeTwice`).
  - `startNewChatSession()` silently replaces an existing chat session under the same key.

## Model

| member | source | states |
|---|---|---|
| Config.ResolveModelPath | src/config.js:21-27 | a path starting with `~` becomes `join(home, rest)`; any other path is returned unchanged |
| Config.NewConfig | src/config.js:31-36 | every user key overrides its default and every omitted key keeps it; the merged model path is `~`-expanded; a non-string model path makes the constructor throw |
| Config.EmptyUserConfigIsDefaults | src/config.js:5-18 | with no user settings the configuration equals the defaults |
| Config.Set | src/config.js:42-45 | `set(k, v)` makes `k` read `v` and leaves every other key as it was |
| Config.Update | src/config.js:47-50 | `update(u)` is a shallow merge: keys of `u` take its values, all others keep theirs, and the model path is not re-expanded |
| Config.Validate | src/config.js:80-83 | `valid` is true exactly when `errors` is empty |
| Config.ValidateListsBrokenRules | src/config.js:53-79 | the error list holds the messages of the broken rules in the fixed order modelPath, contextSize, threads, temperature, topP, maxTokens |
| Config.ValidateReportsBrokenRules | src/config.js:53-84 | a rule's message is reported exactly when that rule is broken, once; valid exactly when no rule is broken |
| Config.ResolveIsStable | src/config.js:21-27 | when joining onto the home directory never yields a leading `~`, expanding twice is expanding once, for every path |
| Config.InRangeSettingsValidate | src/config.js:5-84 | user settings that are absent or in range, with a string model path that stays non-empty, construct without error and validate with no errors |
| Config.ValidIffInRange | src/config.js:56-78 | with numeric settings: valid iff model path truthy, contextSize ≥ 128, threads ≥ 1, 0 ≤ temperature ≤ 2, 0 ≤ topP ≤ 1, maxTokens ≥ 1 (bounds accepted) |
| Config.DefaultsAreValid | src/config.js:5-18 | the defaults validate with no errors |
| Config.NaNSettingsPassValidation | src/config.js:60-78 | settings that compare as NaN (unset, `undefined`, non-numeric text) trigger none of the five range messages |
| Values.NaNPassesRangeChecks | src/config.js:68-74 | a NaN operand is neither below nor above a bound, so `v < lo \|\| v > hi` is false |
| ModelManager.NewManager | src/model-manager.js:10-19 | the manager keeps the model path, its directory is `dirname(modelPath)`, its sources are the fixed table |
| ModelManager.Exists | src/model-manager.js:24-26 | no contract of its own: the probe is the `present` flag of the operation's one `Disk` snapshot; what it decides is stated by `Orchestrator.ExistsDecidesLifecycle` |
| ModelManager.GetSize | src/model-manager.js:31-39 | the size is reported only for a present file whose stat succeeds; otherwise `null` |
| ModelManager.GetModelInfo | src/model-manager.js:57-70 | `exists` equals the existence probe; `size` is what `getSize()` reports (`null` for a missing file); path, directory and sources echo the manager; expected size 1073741824 and the fixed model name |
| ModelManager.DownloadMatchesModelInfo | src/model-manager.js:57-83 | a download record names the same destination, directory and model file as the model info, and any URL it carries is one of the info's sources |
| ModelManager.GetDownloadInfo | src/model-manager.js:75-83 | an omitted source defaults to `hyperdrive`; the URL is the table entry under the source's key, absent for an unknown source with no fallback; destination and directory echo the manager |
| ModelManager.DownloadSources | src/model-manager.js:15-18 | with the fixed table: default gives the hyperdrive URL, `cloud` the cloud URL, any other name no URL |
| ModelManager.EnsureDirectory | src/model-manager.js:44-52 | a failed directory creation is reported as `false`, never thrown |
| Orchestrator.New | src/index.js:13-41 | a builder's settings are adopted as they are, plain settings go through the config constructor; the manager watches the configured path; the object starts uninitialized with no sessions |
| Orchestrator.Initialize | src/index.js:92-127 | missing model: returns `false`, emits `model:missing` then `error{type:'model:missing'}`, state unchanged; success: `isInitialized` set and `ready` is the only event; a load failure, after the `getLlama` call, rethrows the first rejection among `getLlama`, `loadModel` and `createContext`, emits it as the last event and leaves `isInitialized` as it was |
| Orchestrator.MissingModelNeverReady | src/index.js:95-104 | a missing model yields `false`, exactly two events (`model:missing`, then the error carrying the same info), never `ready`, and any number of retries leaves the state unchanged |
| Orchestrator.Dispose | src/index.js:295-303 | disposes the context then the model, whichever exist, and clears `isInitialized`; succeeds exactly when every dispose call made succeeds; a rejected call is rethrown, skips the rest and leaves the state as it was; emits nothing |
| Orchestrator.DisposeTwice | src/index.js:295-303 | with the same engine answers a second `dispose()` has the same outcome, state and dispose calls as the first |
| Orchestrator.ReinitializeAfterDispose | src/index.js:92-127 | after `dispose()`, successful or not, a successful `initialize()` makes the object ready again with its sessions kept |
| Orchestrator.StartNewChatSession | src/index.js:134-141 | before a context is loaded it always throws the `getSequence` TypeError; otherwise a session is stored under the chat's key, replacing any earlier one and leaving other keys alone, or, without a sequence for the chat, it throws and changes nothing |
| Orchestrator.OnModelCheck | src/index.js:50-57 | exactly one event, `model:exists` iff the file is present, otherwise `model:missing`, carrying the model info; state unchanged |
| Orchestrator.OnDownloadStart | src/index.js:60-69 | a falsy or absent `source` becomes `hyperdrive`; the directory is created first, then `model:download:ready` is emitted, whatever creation answered, with the manager's download record for that source |
| Orchestrator.DownloadRequests | src/index.js:60-68 | no data gives the hyperdrive URL, `{source: 'cloud'}` the cloud URL, any other source no URL; the destination is the configured model path |
| Orchestrator.OnDownloadComplete | src/index.js:72-84 | nothing happens unless the model is present; then `initialize()` runs and any failure becomes an extra `error{type:'initialization'}` event instead of a throw |
| Orchestrator.DownloadCompleteMakesReady | src/index.js:72-120 | once the file is present and the engine loads, the download-complete listener makes the object ready and `ready` is the only event |
| Orchestrator.ExistsDecidesLifecycle | src/index.js:72-104 | `initialize()` answers `false` exactly when the model file is missing, and the download-complete listener does nothing exactly then |
| Orchestrator.CheckAgreesWithInitialize | src/index.js:50-104 | with the model missing, `model:check` emits exactly the record `initialize()` emits first |
| Orchestrator.ModelInfoDescribesConfiguredModel | src/model-manager.js:10-70 | the model info of a `BeeBee` names its configured model path and that path's directory, reports `getSize()` and the fixed sources |
| Orchestrator.OperationsKeepCoherence | src/index.js:34 | every lifecycle operation keeps the manager watching the configured model path |
| Prompting.BuildPrompt | src/index.js:232-245 | the prompt always ends with `User: <text>\nAssistant: `; it starts with `systemPrompt + "\n\n"` when that is included; without it, it is just the turn, or `bboxid: <id>\n` and the turn for a truthy id |
| Prompting.BuildPromptLayout | src/index.js:232-245 | the built prompt starts with `systemPrompt + "\n\n"` when it is included; has `bboxid: <id>\n` after it exactly for a truthy id; always ends with `User: <text>\nAssistant: `; without either it is just that turn |
| Prompting.UserTextRoundTrip | src/index.js:243 | the user text can be read back from the built prompt, so different texts give different prompts |
| Prompting.SuppressedSystemPrompt | src/index.js:235-237 | with `includeSystemPrompt: false` the prompt holds no system text |
| Prompting.SamplingFor | src/index.js:157-159 | temperature, topP and maxTokens each take the option when truthy and the configured value otherwise (an explicit 0 falls back) |
| Prompting.SamplingInRange | src/index.js:157-159 | with a numeric configuration that validates and options that are falsy or in range, temperature, topP and maxTokens all fall within the validated ranges |
| Prompting.Prompt | src/index.js:148-172 | rejects with "BeeBee not initialized…" before any call or event when uninitialized; success returns the engine's reply and emits `response` with the id; a chat without a session throws the `prompt`-of-undefined TypeError and emits only that `error`; an engine failure follows the generate request and is rethrown; every failure emits `error` last and no `response` |
| Prompting.MissingModelRejectsPrompts | src/index.js:148-152 | a new object whose model is missing still rejects prompts after `initialize()`, with no effects |
| Prompting.DisposedRejectsPrompts | src/index.js:295-303 | after a successful `dispose()` prompts reject with no effects |
| Prompting.ReadyPromptReachesEngine | src/index.js:154-163 | after a successful `initialize()`, a prompt on a started session sends the built prompt and sampling options to the session and emits only `response` |
| Prompting.StartedSessionAnswersPrompts | src/index.js:134-163 | after a successful `initialize()` and `startNewChatSession(id)`, `prompt` on that id returns the session's reply and emits only `response` |
| Prompting.StringsElementwise | src/index.js:195-201 | each element of a delivered array becomes its own fragment, in place: a numeric token through `detokenize([n])`, anything else as its text |
| Prompting.Accumulate | src/index.js:186-213 | after all deliveries the accumulator is the concatenation of the fragments, and the log is each fragment's `token` event followed by its callback |
| Prompting.AccumulateDelivery | src/index.js:193-212 | one callback invocation: an array is flattened, numbers are detokenized and other values kept as text, each appended, emitted and passed on in order |
| Prompting.FanOutDelivers | src/index.js:203-210 | the token events and the callback receive the same fragments in the same order, all tagged with the call's id |
| Prompting.PromptStream | src/index.js:179-225 | the loop over the engine's callback invocations produces exactly the loop-free reference `StreamReference`: the request, each fragment's `token` event and callback, then the closing event |
| Prompting.StreamOutcome | src/index.js:179-224 | rejects before any call or event when uninitialized; succeeds exactly when a started session's generation succeeds; the state is unchanged |
| Prompting.StreamProperties | src/index.js:186-224 | the token events carry the normalised fragments in order and the callback sees the same ones, all tagged with the call's id; return value = `response` payload = concatenation of the token fragments, so the engine's own reply is ignored; a failed generation rethrows the engine's error, emits `error` last and no `response` |

## Left out

- Node.js `EventEmitter` asynchrony is not modelled. This covers the un-awaited `initialize()` started by the constructor, the detached `model:download:complete` listener, and overlapping calls on one session. Events are an ordered log per call.
- Node's `EventEmitter` throws when `error` is emitted with no listener. The model assumes an `error` listener is registered. That cannot hold when the model is missing for the `initialize()` the constructor starts: that branch runs synchronously inside the constructor, before any listener can be added, so its `error` emit throws and the promise rejects with no handler. On the engine path the `error` emit comes after an `await`, by when a listener added right after construction is registered.
- Diagnostic output is not modelled: the `console.error` calls in `initialize()`, `prompt()`, `promptStream()` and `ensureDirectory()` (and in `complete()`, itself not modelled) write to the console only and change no state, event or result.
- Event listeners and the `onToken` callback are assumed never to throw. Node calls listeners synchronously inside `emit`, so a throwing `response` listener would make `prompt`/`promptStream` emit `response`, then `error`, then reject, and a throwing `ready` listener would make `initialize()` reject with `isInitialized` already set. Neither outcome is modelled.
- The inference library is not modelled: `getLlama`, `loadModel`, `createContext`, `getSequence`, `LlamaChatSession`, `detokenize`. What it answers to `initialize()`, `dispose()` and generation is an input, and its handles are opaque numbers.
- `complete()` is a pass-through to engine calls (`tokenize`, `insertTokens`, `evaluate`) and is not modelled.
- `getModelInfo()` of `BeeBee` only echoes configuration fields and is not modelled.
- `config.modelOptions` and `config.sessionOptions` are spread into engine calls. They are engine-specific and are not modelled.
- File-system calls (`existsSync`, `statSync`) are read from one `Disk` snapshot per operation. `getModelInfo` probes three times (`exists()` twice and a stat), `initialize()` probes once more before it, and the download-complete listener probes before `initialize()`. A file that appears or disappears between these probes is not modelled.
- `ensureDirectory()` turns a failed `mkdir` into `false`, and the download-start listener discards that answer, so the model records only the `MakeDirectory` call.
- Orchestrator.StartNewChatSession: on a loaded context, what `this.context[chatID]` yields is the input `sequence`, unconstrained. The engine's context probably has no property per chat id, in which case every call throws; the model does not decide this.
- `os.homedir`, `path.join`, `path.dirname` and `String(number)` are parameters with no properties assumed. The example `/test/model.gguf` → `/test` therefore is not derived.
- `Config.Set`, `Config.Update`: the builder returns itself for chaining, and a `BeeBee` made from a builder shares its settings object. The model returns new settings, so aliasing between the two is not modelled.
- Values.ToNumber: numeric text with a sign, decimal point, exponent, surrounding blanks or a hex prefix is treated as NaN. JavaScript would parse it. Only the empty string and plain decimal digits convert.
- Numbers are reals: NaN and the infinities as stored values, and floating-point rounding, are not represented. Sampling values are only compared, never computed with.
- Objects, arrays and functions as setting values, prompt texts or chat ids are not modelled. Property names inherited from `Object.prototype` (e.g. a download source named `toString`) are not modelled.
- `src/finetune-manager.js` and `python/finetune.py` are stubs around child processes and a mock training loop, and are not part of this model.

=== FILE: config.dfy ===
/** The configuration builder: defaults merged with user settings, home
    expansion of the model path, setters and the range validator. */
module Config {
  import opened Wrappers
  import opened Values
  import Platform

  /** The default model path, an absolute path. It is written as two
      literals because the verifier reads the characters of a short literal
      but not of a long one, and the proofs need its leading `/`. */
  const DefaultModelPath: string :=
    "/home/aboynejames/" + ".local/share/nomic.ai/GPT4All/openhands-lm-1.5b-v0.1.i1-Q4_0.gguf"

  /** The default settings. There is no `systemPrompt` among them. */
  const Defaults: Object := map[
    "modelPath" := Str(DefaultModelPath),
    "contextSize" := Num(2048.0),
    "threads" := Num(4.0),
    "temperature" := Num(0.7),
    "topP" := Num(0.9),
    "maxTokens" := Num(256.0),
    "verbose" := Bool(false)
  ]

  predicate StartsWithTilde(p: string)
  {
    |p| > 0 && p[0] == '~'
  }

  /** Expands a leading `~` to the home directory; any other path is kept. */
  function ResolveModelPath(host: Platform.Host, p: string): (r: string)
    ensures StartsWithTilde(p) ==> r == host.join(host.home, p[1..])
    ensures !StartsWithTilde(p) ==> r == p
  {
    if StartsWithTilde(p) then host.join(host.home, p[1..]) else p
  }

  /** What the constructor throws: `modelPath.startsWith` on a value that is
      not a string is a TypeError. */
  datatype ConfigError = ModelPathNotString(found: Value)

  /** `new BeeBeeConfig(user)`: the merge `{...defaults, ...user}` followed by
      home expansion of the merged model path. */
  function NewConfig(host: Platform.Host, user: Object): (r: Result<Object, ConfigError>)
    ensures r.Success? <==> Get(Defaults + user, "modelPath").Str?
    ensures r.Failure? ==> r.error == ModelPathNotString(Get(Defaults + user, "modelPath"))
    ensures r.Success? ==> r.value.Keys == Defaults.Keys + user.Keys
    ensures r.Success? ==>
      forall k :: k != "modelPath" ==>
        Get(r.value, k) == (if k in user then user[k] else Get(Defaults, k))
    ensures r.Success? ==>
      var given := if "modelPath" in user then user["modelPath"] else Str(DefaultModelPath);
      given.Str? && Get(r.value, "modelPath") == Str(ResolveModelPath(host, given.s))
  {
    var merged := Defaults + user;
    match merged["modelPath"]
    case Str(p) => Success(merged["modelPath" := Str(ResolveModelPath(host, p))])
    case other => Failure(ModelPathNotString(other))
  }

  /** `config.set(key, value)`. */
  function Set(c: Object, key: string, value: Value): (r: Object)
    ensures Get(r, key) == value
    ensures forall k :: k != key ==> Get(r, k) == Get(c, k)
    ensures r.Keys == c.Keys + {key}
  {
    c[key := value]
  }

  /** `config.update(updates)`: a shallow merge; the model path is not
      expanded again. */
  function Update(c: Object, updates: Object): (r: Object)
    ensures forall k :: Get(r, k) == (if k in updates then updates[k] else Get(c, k))
    ensures r.Keys == c.Keys + updates.Keys
  {
    c + updates
  }

  /** The six rules the validator checks, in the order it checks them. */
  datatype Rule =
    | ModelPathRequired
    | ContextSizeMin
    | ThreadsMin
    | TemperatureRange
    | TopPRange
    | MaxTokensMin

  const RuleOrder: seq<Rule> :=
    [ModelPathRequired, ContextSizeMin, ThreadsMin, TemperatureRange, TopPRange, MaxTokensMin]

  function Message(rule: Rule): string
  {
    match rule
    case ModelPathRequired => "Model path is required"
    case ContextSizeMin => "Context size must be at least 128"
    case ThreadsMin => "Threads must be at least 1"
    case TemperatureRange => "Temperature must be between 0 and 2"
    case TopPRange => "TopP must be between 0 and 1"
    case MaxTokensMin => "MaxTokens must be at least 1"
  }

  /** Whether a configuration breaks a rule, with JavaScript's comparisons. */
  predicate Violates(c: Object, rule: Rule)
  {
    match rule
    case ModelPathRequired => !Truthy(Get(c, "modelPath"))
    case ContextSizeMin => LessThan(Get(c, "contextSize"), 128.0)
    case ThreadsMin => LessThan(Get(c, "threads"), 1.0)
    case TemperatureRange =>
      LessThan(Get(c, "temperature"), 0.0) || GreaterThan(Get(c, "temperature"), 2.0)
    case TopPRange => LessThan(Get(c, "topP"), 0.0) || GreaterThan(Get(c, "topP"), 1.0)
    case MaxTokensMin => LessThan(Get(c, "maxTokens"), 1.0)
  }

  /** The rules of `rules` that `c` breaks, in order. */
  function Broken(c: Object, rules: seq<Rule>): (r: seq<Rule>)
    ensures forall rule :: rule in r <==> rule in rules && Violates(c, rule)
  {
    if rules == [] then []
    else (if Violates(c, rules[0]) then [rules[0]] else []) + Broken(c, rules[1..])
  }

  function Messages(rules: seq<Rule>): (r: seq<string>)
    ensures |r| == |rules|
    ensures forall i :: 0 <= i < |rules| ==> r[i] == Message(rules[i])
  {
    if rules == [] then [] else [Message(rules[0])] + Messages(rules[1..])
  }

  datatype Validation = Validation(valid: bool, errors: seq<string>)

  /** One rule's contribution to the error list. */
  function Check(c: Object, rule: Rule): seq<string>
  {
    if Violates(c, rule) then [Message(rule)] else []
  }

  /** `config.validate()`: the six checks in source order, each pushing its
      message when its rule is broken. */
  function Validate(c: Object): (r: Validation)
    ensures r.valid <==> r.errors == []
  {
    var errors :=
      Check(c, ModelPathRequired) + Check(c, ContextSizeMin) + Check(c, ThreadsMin)
      + Check(c, TemperatureRange) + Check(c, TopPRange) + Check(c, MaxTokensMin);
    Validation(|errors| == 0, errors)
  }

  /** `Broken` and `Messages` computed together, rule by rule. */
  lemma {:induction false} MessagesOfBroken(c: Object, rules: seq<Rule>)
    ensures rules != [] ==> Messages(Broken(c, rules)) == Check(c, rules[0]) + Messages(Broken(c, rules[1..]))
  {
    if rules != [] {
      var head := if Violates(c, rules[0]) then [rules[0]] else [];
      assert Broken(c, rules) == head + Broken(c, rules[1..]);
      MessagesAppend(head, Broken(c, rules[1..]));
    }
  }

  lemma {:induction false} MessagesAppend(a: seq<Rule>, b: seq<Rule>)
    ensures Messages(a + b) == Messages(a) + Messages(b)
  {
  }

  /** The validator's list is the messages of the broken rules in rule order. */
  lemma ValidateListsBrokenRules(c: Object)
    ensures Validate(c).errors == Messages(Broken(c, RuleOrder))
  {
    var rs := RuleOrder;
    var k0, k1, k2 := Check(c, ModelPathRequired), Check(c, ContextSizeMin), Check(c, ThreadsMin);
    var k3, k4, k5 := Check(c, TemperatureRange), Check(c, TopPRange), Check(c, MaxTokensMin);
    MessagesOfBroken(c, rs[5..]);
    assert rs[5..][1..] == [];
    assert Messages(Broken(c, rs[5..])) == k5;
    MessagesOfBroken(c, rs[4..]);
    assert rs[4..][1..] == rs[5..];
    assert Messages(Broken(c, rs[4..])) == k4 + k5;
    MessagesOfBroken(c, rs[3..]);
    assert rs[3..][1..] == rs[4..];
    assert Messages(Broken(c, rs[3..])) == k3 + (k4 + k5);
    MessagesOfBroken(c, rs[2..]);
    assert rs[2..][1..] == rs[3..];
    assert Messages(Broken(c, rs[2..])) == k2 + (k3 + (k4 + k5));
    MessagesOfBroken(c, rs[1..]);
    assert rs[1..][1..] == rs[2..];
    assert Messages(Broken(c, rs[1..])) == k1 + (k2 + (k3 + (k4 + k5)));
    MessagesOfBroken(c, rs);
    assert Messages(Broken(c, rs)) == k0 + (k1 + (k2 + (k3 + (k4 + k5))));
    ConcatAssociates(k0, k1, k2, k3, k4, k5);
  }

  lemma ConcatAssociates(k0: seq<string>, k1: seq<string>, k2: seq<string>,
                         k3: seq<string>, k4: seq<string>, k5: seq<string>)
    ensures k0 + k1 + k2 + k3 + k4 + k5 == k0 + (k1 + (k2 + (k3 + (k4 + k5))))
  {
  }

  /** The validator reports a rule's message exactly when the rule is
      broken, and is valid exactly when no rule is broken. */
  lemma ValidateReportsBrokenRules(c: Object)
    ensures forall rule :: Message(rule) in Validate(c).errors <==> Violates(c, rule)
    ensures NoRepeats(Validate(c).errors)
    ensures Validate(c).valid <==> forall rule :: !Violates(c, rule)
  {
    ValidateListsBrokenRules(c);
    RuleOrderNoRepeats();
    BrokenNoRepeats(c, RuleOrder);
    MessagesNoRepeats(Broken(c, RuleOrder));
    forall rule
      ensures Message(rule) in Validate(c).errors <==> Violates(c, rule)
    {
      ReportedIffBroken(c, rule);
    }
    var broken := Broken(c, RuleOrder);
    if broken != [] {
      assert broken[0] in broken;
    }
  }

  lemma ReportedIffBroken(c: Object, rule: Rule)
    ensures Message(rule) in Messages(Broken(c, RuleOrder)) <==> Violates(c, rule)
  {
    MessageListed(Broken(c, RuleOrder), rule);
    assert rule in RuleOrder by {
      match rule
      case ModelPathRequired => assert RuleOrder[0] == rule;
      case ContextSizeMin => assert RuleOrder[1] == rule;
      case ThreadsMin => assert RuleOrder[2] == rule;
      case TemperatureRange => assert RuleOrder[3] == rule;
      case TopPRange => assert RuleOrder[4] == rule;
      case MaxTokensMin => assert RuleOrder[5] == rule;
    }
  }

  /** A rule's message is in the messages of a rule list exactly when the
      rule is in the list. */
  lemma {:induction false} MessageListed(rules: seq<Rule>, rule: Rule)
    ensures Message(rule) in Messages(rules) <==> rule in rules
  {
    if rules != [] {
      MessageListed(rules[1..], rule);
      MessageInjective(rule);
      assert rules == [rules[0]] + rules[1..];
      assert Messages(rules) == [Message(rules[0])] + Messages(rules[1..]);
    }
  }

  /** No element of `s` occurs twice. */
  predicate NoRepeats<T(==)>(s: seq<T>)
  {
    forall i, j :: 0 <= i < j < |s| ==> s[i] != s[j]
  }

  lemma RuleOrderNoRepeats()
    ensures NoRepeats(RuleOrder)
  {
  }

  /** Filtering a list without repeats leaves a list without repeats. */
  lemma {:induction false} BrokenNoRepeats(c: Object, rules: seq<Rule>)
    requires NoRepeats(rules)
    ensures NoRepeats(Broken(c, rules))
  {
    if rules != [] {
      var tail := rules[1..];
      assert NoRepeats(tail) by {
        forall i, j | 0 <= i < j < |tail|
          ensures tail[i] != tail[j]
        {
          assert tail[i] == rules[i + 1] && tail[j] == rules[j + 1];
        }
      }
      BrokenNoRepeats(c, tail);
      var rest := Broken(c, tail);
      assert rules[0] !in tail by {
        forall k | 0 <= k < |tail|
          ensures tail[k] != rules[0]
        {
          assert tail[k] == rules[k + 1];
        }
      }
      assert rules[0] !in rest;
      var head := if Violates(c, rules[0]) then [rules[0]] else [];
      var all := head + rest;
      assert Broken(c, rules) == all;
      forall i, j | 0 <= i < j < |all|
        ensures all[i] != all[j]
      {
        assert all[j] == rest[j - |head|];
        if i < |head| {
          assert all[i] == rules[0];
          assert rest[j - |head|] in rest;
        } else {
          assert all[i] == rest[i - |head|];
        }
      }
    }
  }

  /** Rules without repeats have messages without repeats. */
  lemma MessagesNoRepeats(rules: seq<Rule>)
    requires NoRepeats(rules)
    ensures NoRepeats(Messages(rules))
  {
    var ms := Messages(rules);
    forall i, j | 0 <= i < j < |ms|
      ensures ms[i] != ms[j]
    {
      MessageInjective(rules[i]);
    }
  }

  /** Distinct rules have distinct messages. */
  lemma MessageInjective(rule: Rule)
    ensures forall other :: Message(other) == Message(rule) ==> other == rule
  {
  }

  /** Expansion is idempotent when joining the home directory never yields
      a path that starts with `~`: a `~` is expanded once, and an expanded
      or plain path is left alone. */
  lemma ResolveIsStable(host: Platform.Host, p: string)
    requires forall rest :: !StartsWithTilde(host.join(host.home, rest))
    ensures ResolveModelPath(host, ResolveModelPath(host, p)) == ResolveModelPath(host, p)
  {
    if StartsWithTilde(p) {
      assert !StartsWithTilde(host.join(host.home, p[1..]));
    }
  }

  /** Key `k` of `u` is absent, or a number at least `lo`. */
  predicate AbsentOrAtLeast(u: Object, k: string, lo: real)
  {
    k !in u || (u[k].Num? && u[k].n >= lo)
  }

  /** Key `k` of `u` is absent, or a number in `[lo, hi]`. */
  predicate AbsentOrBetween(u: Object, k: string, lo: real, hi: real)
  {
    k !in u || (u[k].Num? && lo <= u[k].n <= hi)
  }

  /** The number a setting ends up with: the user's when given, else the default. */
  function Setting(u: Object, k: string, default: real): real
  {
    if k in u && u[k].Num? then u[k].n else default
  }

  /** The numeric defaults. */
  lemma DefaultNumbers()
    ensures Get(Defaults, "contextSize") == Num(2048.0) && Get(Defaults, "threads") == Num(4.0)
    ensures Get(Defaults, "temperature") == Num(0.7) && Get(Defaults, "topP") == Num(0.9)
    ensures Get(Defaults, "maxTokens") == Num(256.0)
  {
  }

  /** A numeric setting of a built configuration is the user's number when
      given, else its default. */
  lemma SettingOfBuilt(host: Platform.Host, u: Object, k: string, default: real)
    requires NewConfig(host, u).Success? && k != "modelPath"
    requires k in u ==> u[k].Num?
    requires Get(Defaults, k) == Num(default)
    ensures Get(NewConfig(host, u).value, k) == Num(Setting(u, k, default))
  {
  }

  /** A model path that is absent, or a string that stays non-empty once
      expanded, builds a configuration with a truthy model path. */
  lemma BuiltModelPathTruthy(host: Platform.Host, u: Object)
    requires "modelPath" in u ==> u["modelPath"].Str? && ResolveModelPath(host, u["modelPath"].s) != ""
    ensures NewConfig(host, u).Success?
    ensures Truthy(Get(NewConfig(host, u).value, "modelPath"))
  {
    assert Get(Defaults + u, "modelPath").Str?;
    if "modelPath" !in u {
      assert DefaultModelPath[0] == '/';
    }
  }

  /** A configuration with a truthy model path and every number in range
      validates with no errors. */
  lemma InRangeIsValid(c: Object, contextSize: real, threads: real, temperature: real, topP: real, maxTokens: real)
    requires Truthy(Get(c, "modelPath"))
    requires Get(c, "contextSize") == Num(contextSize) && contextSize >= 128.0
    requires Get(c, "threads") == Num(threads) && threads >= 1.0
    requires Get(c, "temperature") == Num(temperature) && 0.0 <= temperature <= 2.0
    requires Get(c, "topP") == Num(topP) && 0.0 <= topP <= 1.0
    requires Get(c, "maxTokens") == Num(maxTokens) && maxTokens >= 1.0
    ensures Validate(c) == Validation(true, [])
  {
    ValidIffInRange(c, contextSize, threads, temperature, topP, maxTokens);
  }

  /** User settings whose numbers are in range and whose model path expands
      to a non-empty string build a configuration that validates: the
      constructor and the validator agree on what a sound setting is. */
  lemma InRangeSettingsValidate(host: Platform.Host, u: Object)
    requires "modelPath" in u ==> u["modelPath"].Str? && ResolveModelPath(host, u["modelPath"].s) != ""
    requires AbsentOrAtLeast(u, "contextSize", 128.0) && AbsentOrAtLeast(u, "threads", 1.0)
    requires AbsentOrBetween(u, "temperature", 0.0, 2.0) && AbsentOrBetween(u, "topP", 0.0, 1.0)
    requires AbsentOrAtLeast(u, "maxTokens", 1.0)
    ensures NewConfig(host, u).Success?
    ensures Validate(NewConfig(host, u).value) == Validation(true, [])
  {
    BuiltModelPathTruthy(host, u);
    var c := NewConfig(host, u).value;
    DefaultNumbers();
    SettingOfBuilt(host, u, "contextSize", 2048.0);
    SettingOfBuilt(host, u, "threads", 4.0);
    SettingOfBuilt(host, u, "temperature", 0.7);
    SettingOfBuilt(host, u, "topP", 0.9);
    SettingOfBuilt(host, u, "maxTokens", 256.0);
    InRangeIsValid(c, Setting(u, "contextSize", 2048.0), Setting(u, "threads", 4.0),
                   Setting(u, "temperature", 0.7), Setting(u, "topP", 0.9), Setting(u, "maxTokens", 256.0));
  }

  /** A configuration built with no user settings is the defaults: their
      model path has no `~` to expand. */
  lemma EmptyUserConfigIsDefaults(host: Platform.Host)
    ensures NewConfig(host, map[]) == Success(Defaults)
  {
    assert Defaults + map[] == Defaults;
    assert DefaultModelPath[0] == '/';
    assert Defaults["modelPath" := Str(DefaultModelPath)] == Defaults;
  }

  /** The defaults validate with no errors. */
  lemma DefaultsAreValid()
    ensures Validate(Defaults) == Validation(true, [])
  {
    assert DefaultModelPath[0] == '/';
    ValidIffInRange(Defaults, 2048.0, 4.0, 0.7, 0.9, 256.0);
  }

  /** The validator accepts exactly when none of the six rules is broken. */
  lemma ValidIffNoneBroken(c: Object)
    ensures Validate(c).valid <==>
      && !Violates(c, ModelPathRequired) && !Violates(c, ContextSizeMin) && !Violates(c, ThreadsMin)
      && !Violates(c, TemperatureRange) && !Violates(c, TopPRange) && !Violates(c, MaxTokensMin)
  {
  }

  /** When every numeric setting holds a number, the configuration is valid
      exactly when the model path is truthy and every number lies in its
      range, bounds included. */
  lemma ValidIffInRange(c: Object, contextSize: real, threads: real, temperature: real, topP: real, maxTokens: real)
    requires Get(c, "contextSize") == Num(contextSize)
    requires Get(c, "threads") == Num(threads)
    requires Get(c, "temperature") == Num(temperature)
    requires Get(c, "topP") == Num(topP)
    requires Get(c, "maxTokens") == Num(maxTokens)
    ensures Validate(c).valid <==>
      && Truthy(Get(c, "modelPath"))
      && contextSize >= 128.0
      && threads >= 1.0
      && 0.0 <= temperature <= 2.0
      && 0.0 <= topP <= 1.0
      && maxTokens >= 1.0
  {
    ValidIffNoneBroken(c);
    assert Violates(c, ModelPathRequired) <==> !Truthy(Get(c, "modelPath"));
    assert Violates(c, ContextSizeMin) <==> contextSize < 128.0;
    assert Violates(c, ThreadsMin) <==> threads < 1.0;
    assert Violates(c, TemperatureRange) <==> temperature < 0.0 || temperature > 2.0;
    assert Violates(c, TopPRange) <==> topP < 0.0 || topP > 1.0;
    assert Violates(c, MaxTokensMin) <==> maxTokens < 1.0;
  }

  /** A numeric setting that reads as `undefined` (unset, or set to
      `undefined`) or holds non-numeric text compares as NaN, so its rule is
      never reported: such a configuration can validate although the value
      is not in range. */
  lemma NaNSettingsPassValidation(c: Object)
    requires Truthy(Get(c, "modelPath"))
    requires ToNumber(Get(c, "contextSize")).None? && ToNumber(Get(c, "threads")).None?
    requires ToNumber(Get(c, "temperature")).None? && ToNumber(Get(c, "topP")).None?
    requires ToNumber(Get(c, "maxTokens")).None?
    ensures Validate(c) == Validation(true, [])
  {
    ValidateReportsBrokenRules(c);
    forall rule
      ensures !Violates(c, rule)
    {
      NaNPassesRangeChecks(Get(c, "temperature"), 0.0, 2.0);
      NaNPassesRangeChecks(Get(c, "topP"), 0.0, 1.0);
    }
  }
}

=== FILE: events.dfy ===
/** What the orchestrator does that others can observe, as one ordered
    log per operation: the events it emits, the calls it makes into the
    inference engine and the file system, and the invocations of a caller's
    token callback. */
module Events {
  import opened Values
  import opened ModelManager

  /** An error raised inside the inference engine. */
  datatype EngineError = EngineError(message: string)

  const NotInitializedMessage: string := "BeeBee not initialized. Call initialize() first."

  /** What a failing operation throws. */
  datatype Failure =
    | NotInitialized
      /** a property read on `undefined`, e.g. a session that was never started */
    | TypeError(message: string)
    | EngineFailure(cause: EngineError)
  {
    function Message(): string
    {
      match this
      case NotInitialized => NotInitializedMessage
      case TypeError(m) => m
      case EngineFailure(e) => e.message
    }
  }

  /** The payload of an `error` event. */
  datatype ErrorPayload =
      /** the thrown error itself */
    | Thrown(failure: Failure)
      /** `{type: 'model:missing', message, modelInfo}` */
    | ModelMissingError(message: string, modelInfo: ModelInfo)
      /** `{type: 'initialization', message}` */
    | InitializationError(message: string)

  datatype Event =
    | Ready
    | ModelMissing(info: ModelInfo)
    | ModelExists(info: ModelInfo)
    | DownloadReady(download: DownloadInfo)
    | Token(fragment: string, bboxID: Value)
    | Response(text: string, bboxID: Value)
    | Error(payload: ErrorPayload)

  /** The sampling options handed to the engine. */
  datatype Sampling = Sampling(temperature: Value, topP: Value, maxTokens: Value)

  /** A call out of the orchestrator. */
  datatype Request =
    | GetLlama
    | LoadModel(modelPath: Value)
    | CreateContext(contextSize: Value, threads: Value)
    | OpenSequence(key: string)
    | Generate(sessionKey: string, prompt: string, sampling: Sampling, streaming: bool)
    | DisposeContext
    | DisposeModel
    | MakeDirectory(directory: string)

  datatype Effect =
    | Emit(event: Event)
    | Call(request: Request)
      /** the caller's `onToken(fragment, bboxID)` */
    | Notify(fragment: string, bboxID: Value)

  /** The emitted events, in order. */
  function Emitted(effects: seq<Effect>): seq<Event>
  {
    if effects == [] then []
    else
      var last := effects[|effects| - 1];
      Emitted(effects[..|effects| - 1]) + (if last.Emit? then [last.event] else [])
  }

  /** The fragments of the emitted `token` events, in order. */
  function TokenFragments(effects: seq<Effect>): seq<string>
  {
    if effects == [] then []
    else
      var last := effects[|effects| - 1];
      TokenFragments(effects[..|effects| - 1])
      + (if last.Emit? && last.event.Token? then [last.event.fragment] else [])
  }

  /** The fragments passed to the caller's callback, in order. */
  function Notified(effects: seq<Effect>): seq<string>
  {
    if effects == [] then []
    else
      var last := effects[|effects| - 1];
      Notified(effects[..|effects| - 1]) + (if last.Notify? then [last.fragment] else [])
  }

  /** Every token, response and callback in the log carries the tag `id`. */
  predicate TaggedWith(effects: seq<Effect>, id: Value)
  {
    forall i :: 0 <= i < |effects| ==>
      && (effects[i].Emit? && (effects[i].event.Token? || effects[i].event.Response?) ==>
            effects[i].event.bboxID == id)
      && (effects[i].Notify? ==> effects[i].bboxID == id)
  }

  /** The concatenation of a sequence of fragments. */
  function Concat(fragments: seq<string>): string
  {
    if fragments == [] then ""
    else Concat(fragments[..|fragments| - 1]) + fragments[|fragments| - 1]
  }

  /** The projections of a log are computed piecewise. */
  lemma {:induction false} ProjectionsAppend(a: seq<Effect>, b: seq<Effect>)
    ensures Emitted(a + b) == Emitted(a) + Emitted(b)
    ensures TokenFragments(a + b) == TokenFragments(a) + TokenFragments(b)
    ensures Notified(a + b) == Notified(a) + Notified(b)
  {
    if b != [] {
      var ab := a + b;
      assert ab[..|ab| - 1] == a + b[..|b| - 1];
      ProjectionsAppend(a, b[..|b| - 1]);
    } else {
      assert a + b == a;
    }
  }

  lemma {:induction false} ConcatAppend(a: seq<string>, b: seq<string>)
    ensures Concat(a + b) == Concat(a) + Concat(b)
  {
    if b == [] {
      assert a + b == a;
    } else {
      var ab := a + b;
      assert ab[..|ab| - 1] == a + b[..|b| - 1];
      ConcatAppend(a, b[..|b| - 1]);
    }
  }

  lemma TaggedAppend(a: seq<Effect>, b: seq<Effect>, id: Value)
    requires TaggedWith(a, id) && TaggedWith(b, id)
    ensures TaggedWith(a + b, id)
  {
    forall i | 0 <= i < |a + b|
      ensures (a + b)[i] == (if i < |a| then a[i] else b[i - |a|])
    {
    }
  }

  /** A log of calls only emits no event and delivers no fragment. */
  lemma {:induction false} CallsEmitNothing(effects: seq<Effect>)
    requires forall i :: 0 <= i < |effects| ==> effects[i].Call?
    ensures Emitted(effects) == [] && TokenFragments(effects) == [] && Notified(effects) == []
  {
    if effects != [] {
      CallsEmitNothing(effects[..|effects| - 1]);
    }
  }

  /** The projections of a log with one more effect at its end. */
  lemma ProjectionsSnoc(effects: seq<Effect>, e: Effect)
    ensures Emitted(effects + [e]) == Emitted(effects) + (if e.Emit? then [e.event] else [])
    ensures TokenFragments(effects + [e]) ==
      TokenFragments(effects) + (if e.Emit? && e.event.Token? then [e.event.fragment] else [])
    ensures Notified(effects + [e]) == Notified(effects) + (if e.Notify? then [e.fragment] else [])
  {
    assert (effects + [e])[..|effects|] == effects;
  }

  lemma ProjectionsOfOne(e: Effect)
    ensures Emitted([e]) == (if e.Emit? then [e.event] else [])
    ensures TokenFragments([e]) == (if e.Emit? && e.event.Token? then [e.event.fragment] else [])
    ensures Notified([e]) == (if e.Notify? then [e.fragment] else [])
  {
    assert [e][..0] == [];
  }
}

=== FILE: model_manager.dfy ===
/** Model-presence bookkeeping: where the model file lives, whether it is
    there, and where it can be downloaded from. File-system answers are
    inputs; nothing here touches a disk. */
module ModelManager {
  import opened Wrappers
  import opened Values
  import Platform

  const ModelName: string := "openhands-lm-1.5b-v0.1.i1-Q4_0.gguf"
  /** About one gigabyte. */
  const ExpectedSize: nat := 1073741824
  const DefaultSource: string := "hyperdrive"
  const HyperdriveUrl: string := "hyper://abc123def456..."
  const CloudUrl: string := "https://coherencestream.com/beebeemodel/" + ModelName

  /** The download sources, fixed when a manager is built. */
  const Sources: map<string, string> := map[DefaultSource := HyperdriveUrl, "cloud" := CloudUrl]

  datatype Manager = Manager(modelPath: string, modelDir: string, sources: map<string, string>)

  /** What the file system says about the model file when it is asked:
      `present` is the answer of the existence probe, `stat` the size the stat
      call reports, or `None` when that call throws. */
  datatype Disk = Disk(present: bool, stat: Option<nat>)

  /** `new ModelManager(modelPath)`. */
  function NewManager(host: Platform.Host, modelPath: string): (m: Manager)
    ensures m.modelPath == modelPath
    ensures m.modelDir == host.dirname(modelPath)
    ensures m.sources == Sources
  {
    Manager(modelPath, host.dirname(modelPath), Sources)
  }

  /** `exists()` */
  predicate Exists(disk: Disk)
  {
    disk.present
  }

  /** `getSize()`: the stat size of a file that exists; `null` when the file
      is absent and also when stat fails. */
  function GetSize(disk: Disk): (size: Option<nat>)
    ensures size.Some? <==> Exists(disk) && disk.stat.Some?
    ensures size.Some? ==> size == disk.stat
  {
    if !Exists(disk) then None
    else match disk.stat
      case None => None
      case Some(n) => Some(n)
  }

  /** The record sent with `model:missing` / `model:exists`; `present` is
      the `exists` field. */
  datatype ModelInfo = ModelInfo(
    present: bool,
    path: string,
    directory: string,
    size: Option<nat>,
    sources: map<string, string>,
    expectedSize: nat,
    modelName: string)

  /** `getModelInfo()` */
  function GetModelInfo(m: Manager, disk: Disk): (info: ModelInfo)
    ensures info.present == Exists(disk)
    ensures info.path == m.modelPath && info.directory == m.modelDir
    ensures info.sources == m.sources
    ensures info.expectedSize == ExpectedSize && info.modelName == ModelName
    ensures info.size == GetSize(disk)
    ensures !info.present ==> info.size.None?
    ensures info.present && disk.stat.Some? ==> info.size == disk.stat
  {
    ModelInfo(Exists(disk), m.modelPath, m.modelDir, GetSize(disk), m.sources, ExpectedSize, ModelName)
  }

  /** The record sent with `model:download:ready`. `url` is `None` where the
      program reads `undefined` from the sources table. */
  datatype DownloadInfo = DownloadInfo(
    source: Value,
    url: Option<string>,
    destination: string,
    directory: string,
    modelName: string)

  /** `getDownloadInfo(source)`: an omitted (`undefined`) source defaults to
      `hyperdrive`; the URL is the source table's entry under the source's
      property key, with no fallback for an unknown source. */
  function GetDownloadInfo(m: Manager, showNumber: real -> string, source: Value): (d: DownloadInfo)
    ensures source == Undefined ==> d.source == Str(DefaultSource)
    ensures source != Undefined ==> d.source == source
    ensures var key := ToText(d.source, showNumber);
      && (d.url.Some? <==> key in m.sources)
      && (d.url.Some? ==> d.url.value == m.sources[key])
    ensures d.destination == m.modelPath && d.directory == m.modelDir
    ensures d.modelName == ModelName
  {
    var chosen := if source == Undefined then Str(DefaultSource) else source;
    var key := ToText(chosen, showNumber);
    DownloadInfo(chosen, if key in m.sources then Some(m.sources[key]) else None,
                 m.modelPath, m.modelDir, ModelName)
  }

  /** The download record and the model info describe the same file: the
      download's destination, directory and model name are the info's path,
      directory and model name, and a URL it carries is one of the info's
      sources. */
  lemma DownloadMatchesModelInfo(m: Manager, showNumber: real -> string, source: Value, disk: Disk)
    ensures var d := GetDownloadInfo(m, showNumber, source);
      var info := GetModelInfo(m, disk);
      && d.destination == info.path
      && d.directory == info.directory
      && d.modelName == info.modelName
      && (d.url.Some? ==> d.url.value in info.sources.Values)
  {
  }

  /** `ensureDirectory()`: the outcome of the recursive directory creation is
      an input; a failure is reported as `false`, never thrown. Its only
      caller, the download-start listener (`Orchestrator.OnDownloadStart`),
      discards this answer and records just the directory creation. */
  function EnsureDirectory(created: Result<(), string>): (ok: bool)
    ensures ok <==> created.Success?
  {
    match created
    case Success(_) => true
    case Failure(_) => false
  }

  /** With the fixed source table, the default source is hyperdrive, `cloud`
      names the cloud URL, and a text source naming neither gets no URL. */
  lemma DownloadSources(host: Platform.Host, modelPath: string, name: string)
    requires name != DefaultSource && name != "cloud"
    ensures var m := NewManager(host, modelPath);
      && GetDownloadInfo(m, host.showNumber, Undefined).url == Some(HyperdriveUrl)
      && GetDownloadInfo(m, host.showNumber, Str("cloud")).url == Some(CloudUrl)
      && GetDownloadInfo(m, host.showNumber, Str(name)).url == None
  {
  }
}

=== FILE: orchestrator.dfy ===
/** The `BeeBee` object's state and its lifecycle: construction,
    `initialize`, `dispose`, chat sessions and the model-management event
    listeners. The inference engine's answers are inputs to each operation;
    each operation returns the next state, its effect log and its outcome. */
module Orchestrator {
  import opened Wrappers
  import opened Values
  import opened Events
  import Platform
  import Config
  import MM = ModelManager

  /** An engine object (llama instance, model, context, sequence or chat
      session), known only by identity. */
  type Handle = nat

  datatype BeeBee = BeeBee(
    host: Platform.Host,
    config: Object,
    manager: MM.Manager,
    isInitialized: bool,
    llama: Option<Handle>,
    model: Option<Handle>,
    context: Option<Handle>,
    sessions: map<string, Handle>)

  /** The result of one operation. */
  datatype Step<T> = Step(next: BeeBee, effects: seq<Effect>, result: Result<T, Failure>)

  /** The manager watches the configured model path. */
  predicate Coherent(b: BeeBee)
  {
    && Get(b.config, "modelPath") == Str(b.manager.modelPath)
    && b.manager.modelDir == b.host.dirname(b.manager.modelPath)
    && b.manager.sources == MM.Sources
  }

  /** What the constructor is given: a configuration builder (anything with
      a `get()` method) or a plain settings object. */
  datatype ConfigSource = Builder(settings: Object) | Plain(user: Object)

  /** The configuration the constructor adopts. */
  function ConfigOf(host: Platform.Host, source: ConfigSource): Result<Object, Config.ConfigError>
  {
    match source
    case Builder(settings) => Success(settings)
    case Plain(user) => Config.NewConfig(host, user)
  }

  /** `new BeeBee(config)`, up to the point where it starts `initialize()`:
      the model manager needs the model path as a string. */
  function New(host: Platform.Host, source: ConfigSource): (r: Result<BeeBee, Config.ConfigError>)
    ensures ConfigOf(host, source).Success? ==>
      (r.Success? <==> Get(ConfigOf(host, source).value, "modelPath").Str?)
    ensures ConfigOf(host, source).Failure? ==> r == Failure(ConfigOf(host, source).error)
    ensures r.Success? ==>
      && r.value.config == ConfigOf(host, source).value
      && Coherent(r.value)
      && !r.value.isInitialized
      && r.value.llama.None? && r.value.model.None? && r.value.context.None?
      && r.value.sessions == map[]
  {
    match ConfigOf(host, source)
    case Failure(e) => Failure(e)
    case Success(config) =>
      match Get(config, "modelPath")
      case Str(path) =>
        Success(BeeBee(host, config, MM.NewManager(host, path), false, None, None, None, map[]))
      case other => Failure(Config.ModelPathNotString(other))
  }

  /** The property key a chat identifier selects. */
  function SessionKey(b: BeeBee, bboxID: Value): string
  {
    ToText(bboxID, b.host.showNumber)
  }

  /** What the engine answers while `initialize()` loads the model: the
      llama instance, the loaded model and the new context, each of which
      may instead be an error. */
  datatype LoadAnswers = LoadAnswers(
    llama: Result<Handle, EngineError>,
    model: Result<Handle, EngineError>,
    context: Result<Handle, EngineError>)

  function MissingMessage(b: BeeBee): string
  {
    "Model file not found at: " + ToText(Get(b.config, "modelPath"), b.host.showNumber)
  }

  /** The state and log of a load that failed with `e`. */
  function LoadFailed(b: BeeBee, calls: seq<Effect>, e: EngineError): Step<bool>
  {
    Step(b, calls + [Emit(Error(Thrown(EngineFailure(e))))], Failure(EngineFailure(e)))
  }

  /** `initialize()`. An absent model file is an expected outcome: `false`
      with `model:missing` then `error{type:'model:missing'}` and nothing
      else changed. Otherwise the engine loads the model and creates the
      context; success sets `isInitialized` and emits `ready`, a failure
      emits the error and rethrows it. */
  function Initialize(b: BeeBee, disk: MM.Disk, load: LoadAnswers): (s: Step<bool>)
    ensures s.result == Success(false) <==> !disk.present
    ensures !disk.present ==>
      && s.next == b
      && var info := MM.GetModelInfo(b.manager, disk);
         s.effects == [Emit(ModelMissing(info)), Emit(Error(ModelMissingError(MissingMessage(b), info)))]
    ensures s.result == Success(true) <==> disk.present && load.llama.Success? && load.model.Success? && load.context.Success?
    ensures s.result == Success(true) ==>
      && s.next.isInitialized
      && s.next.model == Some(load.model.value) && s.next.context == Some(load.context.value)
      && Emitted(s.effects) == [Ready]
    ensures Emit(Ready) in s.effects <==> s.result == Success(true)
    ensures s.result.Failure? ==>
      && s.next.isInitialized == b.isInitialized
      && |s.effects| > 0
      && s.effects[|s.effects| - 1] == Emit(Error(Thrown(s.result.error)))
    ensures disk.present && s.result.Failure? ==>
      && s.result.error == EngineFailure(
           if load.llama.Failure? then load.llama.error
           else if load.model.Failure? then load.model.error
           else load.context.error)
      && s.effects[0] == Call(GetLlama)
    ensures s.next.config == b.config && s.next.manager == b.manager && s.next.sessions == b.sessions
    ensures s.next.host == b.host
  {
    if !MM.Exists(disk) then
      var info := MM.GetModelInfo(b.manager, disk);
      Step(b, [Emit(ModelMissing(info)), Emit(Error(ModelMissingError(MissingMessage(b), info)))], Success(false))
    else
      var c0 := [Call(GetLlama)];
      match load.llama
      case Failure(e) => LoadFailed(b, c0, e)
      case Success(llama) =>
        var b1 := b.(llama := Some(llama));
        var c1 := c0 + [Call(LoadModel(Get(b.config, "modelPath")))];
        match load.model
        case Failure(e) => LoadFailed(b1, c1, e)
        case Success(model) =>
          var b2 := b1.(model := Some(model));
          var c2 := c1 + [Call(CreateContext(Get(b.config, "contextSize"), Get(b.config, "threads")))];
          match load.context
          case Failure(e) => LoadFailed(b2, c2, e)
          case Success(context) =>
            CallsEmitNothing(c2);
            ProjectionsAppend(c2, [Emit(Ready)]);
            Step(b2.(context := Some(context), isInitialized := true), c2 + [Emit(Ready)], Success(true))
  }

  /** What the engine answers to the `dispose()` calls on the context and
      on the model; either may reject. */
  datatype DisposeAnswers = DisposeAnswers(context: Result<(), EngineError>, model: Result<(), EngineError>)

  /** `dispose()`: disposes the context, then the model, whichever exist,
      and then clears `isInitialized`. A rejected dispose call propagates
      at once: nothing after it runs and the state is left as it was. The
      handles are kept, so a later call disposes them again. */
  function Dispose(b: BeeBee, answers: DisposeAnswers): (s: Step<()>)
    ensures Emitted(s.effects) == []
    ensures s.result.Success? <==>
      (b.context.Some? ==> answers.context.Success?) && (b.model.Some? ==> answers.model.Success?)
    ensures s.result.Success? ==> s.next == b.(isInitialized := false)
    ensures s.result.Failure? ==> s.next == b
    ensures s.result.Failure? ==> s.result.error == EngineFailure(
      if b.context.Some? && answers.context.Failure? then answers.context.error else answers.model.error)
    ensures s.effects ==
      (if b.context.Some? then [Call(DisposeContext)] else [])
      + (if b.model.Some? && (b.context.Some? ==> answers.context.Success?) then [Call(DisposeModel)] else [])
  {
    var disposeContext := if b.context.Some? then [Call(DisposeContext)] else [];
    CallsEmitNothing(disposeContext);
    if b.context.Some? && answers.context.Failure? then
      Step(b, disposeContext, Failure(EngineFailure(answers.context.error)))
    else
      var calls := disposeContext + (if b.model.Some? then [Call(DisposeModel)] else []);
      CallsEmitNothing(calls);
      if b.model.Some? && answers.model.Failure? then
        Step(b, calls, Failure(EngineFailure(answers.model.error)))
      else
        Step(b.(isInitialized := false), calls, Success(()))
  }

  /** `startNewChatSession(chatID)`: the context's sequence for the chat, if
      the engine's context has one, bound to a new chat session under the
      chat's key. Before a context is loaded, `this.context` is `{}`, so the
      lookup reads `undefined` and the call throws. An existing session under
      the same key is replaced. */
  function StartNewChatSession(b: BeeBee, chatID: Value, sequence: Option<Handle>, session: Handle): (s: Step<()>)
    ensures s.result.Success? <==> b.context.Some? && sequence.Some?
    ensures s.result.Failure? ==>
      s.result.error == TypeError("Cannot read properties of undefined (reading 'getSequence')")
    ensures s.result.Success? ==> s.next.sessions == b.sessions[SessionKey(b, chatID) := session]
    ensures s.result.Success? ==> forall k :: k != SessionKey(b, chatID) && k in b.sessions ==>
      k in s.next.sessions && s.next.sessions[k] == b.sessions[k]
    ensures s.result.Failure? ==> s.next == b && s.effects == []
    ensures s.next == b.(sessions := s.next.sessions)
    ensures Emitted(s.effects) == []
  {
    var key := SessionKey(b, chatID);
    var found := if b.context.Some? then sequence else None;
    match found
    case None =>
      Step(b, [], Failure(TypeError("Cannot read properties of undefined (reading 'getSequence')")))
    case Some(_) =>
      Step(b.(sessions := b.sessions[key := session]), [Call(OpenSequence(key))], Success(()))
  }

  /** The `model:check` listener: reports `model:exists` or `model:missing`
      with the current model info and changes nothing. */
  function OnModelCheck(b: BeeBee, disk: MM.Disk): (s: Step<()>)
    ensures s.next == b && s.result.Success?
    ensures |s.effects| == 1 && s.effects[0].Emit?
    ensures s.effects[0].event.ModelExists? <==> disk.present
    ensures s.effects[0].event.ModelMissing? <==> !disk.present
    ensures s.effects[0].event.info == MM.GetModelInfo(b.manager, disk)
  {
    var info := MM.GetModelInfo(b.manager, disk);
    if info.present then Step(b, [Emit(ModelExists(info))], Success(()))
    else Step(b, [Emit(ModelMissing(info))], Success(()))
  }

  /** The `model:download:start` listener. `data` is `None` when the event
      carries no object; a falsy `data.source` selects `hyperdrive`. The
      download record is built first; then the model directory is created
      (`ensureDirectory()` reports a failure as `false` rather than throwing,
      and its answer is discarded), and `model:download:ready` is emitted with
      the record either way. */
  function OnDownloadStart(b: BeeBee, data: Option<Object>): (s: Step<()>)
    ensures s.next == b && s.result.Success?
    ensures |s.effects| == 2 && s.effects[0] == Call(MakeDirectory(b.manager.modelDir))
    ensures s.effects[1].Emit? && s.effects[1].event.DownloadReady?
    ensures var given := if data.Some? then Get(data.value, "source") else Undefined;
      s.effects[1].event.download == MM.GetDownloadInfo(b.manager, b.host.showNumber, Or(given, Str(MM.DefaultSource)))
    ensures var given := if data.Some? then Get(data.value, "source") else Undefined;
      && (Truthy(given) ==> s.effects[1].event.download.source == given)
      && (!Truthy(given) ==> s.effects[1].event.download.source == Str(MM.DefaultSource))
    ensures var d := s.effects[1].event.download;
      && d.destination == b.manager.modelPath
      && d.directory == b.manager.modelDir
      && d.modelName == MM.ModelName
      && (d.url.Some? <==> ToText(d.source, b.host.showNumber) in b.manager.sources)
  {
    var given := if data.Some? then Get(data.value, "source") else Undefined;
    var source := Or(given, Str(MM.DefaultSource));
    var info := MM.GetDownloadInfo(b.manager, b.host.showNumber, source);
    Step(b, [Call(MakeDirectory(b.manager.modelDir)), Emit(DownloadReady(info))], Success(()))
  }

  /** The `model:download:complete` listener: if the model file is now
      present it re-runs `initialize()`; a failure of that is turned into an
      `error{type:'initialization'}` event after the one `initialize()`
      emitted itself, and is never rethrown. */
  function OnDownloadComplete(b: BeeBee, disk: MM.Disk, load: LoadAnswers): (s: Step<()>)
    ensures s.result.Success?
    ensures !disk.present ==> s.next == b && s.effects == []
    ensures disk.present ==>
      var init := Initialize(b, disk, load);
      && s.next == init.next
      && (init.result.Success? ==> s.effects == init.effects)
      && (init.result.Failure? ==>
            s.effects == init.effects + [Emit(Error(InitializationError(init.result.error.Message())))])
  {
    if !MM.Exists(disk) then Step(b, [], Success(()))
    else
      var init := Initialize(b, disk, load);
      match init.result
      case Success(_) => Step(init.next, init.effects, Success(()))
      case Failure(e) =>
        Step(init.next, init.effects + [Emit(Error(InitializationError(e.Message())))], Success(()))
  }

  /** Every operation keeps the manager pointed at the configured path. */
  lemma OperationsKeepCoherence(b: BeeBee, disk: MM.Disk, load: LoadAnswers, answers: DisposeAnswers,
                                chatID: Value, sequence: Option<Handle>, session: Handle)
    requires Coherent(b)
    ensures Coherent(Initialize(b, disk, load).next)
    ensures Coherent(Dispose(b, answers).next)
    ensures Coherent(StartNewChatSession(b, chatID, sequence, session).next)
    ensures Coherent(OnDownloadComplete(b, disk, load).next)
  {
  }

  /** A missing model never makes the object ready: `initialize()` reports
      `false`, emits exactly `model:missing` then `error`, never `ready`,
      and leaves the state alone, however often it is retried. */
  lemma MissingModelNeverReady(b: BeeBee, disk: MM.Disk, load: LoadAnswers, retries: nat)
    requires !disk.present
    ensures var s := Initialize(b, disk, load);
      && s.result == Success(false)
      && |Emitted(s.effects)| == 2
      && Emitted(s.effects)[0].ModelMissing? && !Emitted(s.effects)[0].info.present
      && Emitted(s.effects)[1] == Error(ModelMissingError(MissingMessage(b), Emitted(s.effects)[0].info))
      && Ready !in Emitted(s.effects)
      && RepeatInitialize(b, disk, load, retries) == b
  {
    var s := Initialize(b, disk, load);
    assert s.effects == [s.effects[0]] + [s.effects[1]];
    ProjectionsAppend([s.effects[0]], [s.effects[1]]);
    RepeatMissingIsStable(b, disk, load, retries);
  }

  /** The state after `n` calls of `initialize()` against the same disk and engine. */
  function RepeatInitialize(b: BeeBee, disk: MM.Disk, load: LoadAnswers, n: nat): BeeBee
    decreases n
  {
    if n == 0 then b else RepeatInitialize(Initialize(b, disk, load).next, disk, load, n - 1)
  }

  lemma {:induction false} RepeatMissingIsStable(b: BeeBee, disk: MM.Disk, load: LoadAnswers, n: nat)
    requires !disk.present
    decreases n
    ensures RepeatInitialize(b, disk, load, n) == b
  {
    if n > 0 {
      RepeatMissingIsStable(Initialize(b, disk, load).next, disk, load, n - 1);
    }
  }

  /** Disposing twice with the same engine answers has the same outcome,
      state and calls as disposing once: after a successful dispose the
      handles are still there and are disposed again; after a rejected one
      nothing changed. */
  lemma DisposeTwice(b: BeeBee, answers: DisposeAnswers)
    ensures Dispose(Dispose(b, answers).next, answers) == Dispose(b, answers)
  {
    var first := Dispose(b, answers);
    if first.result.Success? {
      var d := first.next;
      assert d.context == b.context && d.model == b.model;
      var second := Dispose(d, answers);
      assert second.result.Success?;
      assert second.next == d.(isInitialized := false) == d;
      assert second.effects == first.effects;
    }
  }

  /** Initializing after `dispose()`, whether it succeeded or not, with a
      present model and a working engine makes the object ready again,
      keeping its chat sessions. */
  lemma ReinitializeAfterDispose(b: BeeBee, answers: DisposeAnswers, disk: MM.Disk, load: LoadAnswers)
    requires disk.present && load.llama.Success? && load.model.Success? && load.context.Success?
    ensures var s := Initialize(Dispose(b, answers).next, disk, load);
      s.next.isInitialized && s.next.sessions == b.sessions && Emitted(s.effects) == [Ready]
  {
  }

  /** The model info the object reports describes its configured model: the
      configured path, its directory, the size probe and the fixed sources. */
  lemma ModelInfoDescribesConfiguredModel(b: BeeBee, disk: MM.Disk)
    requires Coherent(b)
    ensures var info := MM.GetModelInfo(b.manager, disk);
      && Get(b.config, "modelPath") == Str(info.path)
      && info.directory == b.host.dirname(info.path)
      && info.size == MM.GetSize(disk)
      && info.sources == MM.Sources
  {
  }

  /** `model:check` and a failing `initialize()` report the same record:
      with the model missing, the check's one event is the first event of
      `initialize()`. */
  lemma CheckAgreesWithInitialize(b: BeeBee, disk: MM.Disk, load: LoadAnswers)
    requires !disk.present
    ensures OnModelCheck(b, disk).effects == [Initialize(b, disk, load).effects[0]]
  {
  }

  /** Download requests from a coherent object: no data means the
      hyperdrive URL, `{source: 'cloud'}` the cloud URL, an unknown source
      no URL; the destination is always the configured model path. */
  lemma DownloadRequests(b: BeeBee, name: string)
    requires Coherent(b)
    requires name != "" && name != MM.DefaultSource && name != "cloud"
    ensures OnDownloadStart(b, None).effects[1].event.download.url == Some(MM.HyperdriveUrl)
    ensures OnDownloadStart(b, Some(map["source" := Str("cloud")])).effects[1].event.download.url == Some(MM.CloudUrl)
    ensures OnDownloadStart(b, Some(map["source" := Str(name)])).effects[1].event.download.url == None
    ensures Get(b.config, "modelPath") == Str(OnDownloadStart(b, None).effects[1].event.download.destination)
  {
    assert Get(map["source" := Str("cloud")], "source") == Str("cloud");
    assert Get(map["source" := Str(name)], "source") == Str(name);
  }

  /** The existence probe decides the lifecycle: `initialize()` answers
      `false` exactly when the model file is missing, the download-complete
      listener does nothing exactly then. */
  lemma ExistsDecidesLifecycle(b: BeeBee, disk: MM.Disk, load: LoadAnswers)
    ensures Initialize(b, disk, load).result == Success(false) <==> !MM.Exists(disk)
    ensures OnDownloadComplete(b, disk, load).effects == [] <==> !MM.Exists(disk)
  {
  }

  /** Once the download has completed and the engine loads the model, the
      object is ready and `ready` is the only event. */
  lemma DownloadCompleteMakesReady(b: BeeBee, disk: MM.Disk, load: LoadAnswers)
    requires disk.present && load.llama.Success? && load.model.Success? && load.context.Success?
    ensures var s := OnDownloadComplete(b, disk, load);
      s.next.isInitialized && s.next.sessions == b.sessions && Emitted(s.effects) == [Ready]
  {
  }
}

=== FILE: platform.dfy ===
/** The parts of the Node.js runtime the program calls but does not define.
    They are parameters of the model: nothing is assumed about them. */
module Platform {

  datatype Host = Host(
    /** `os.homedir()` */
    home: string,
    /** `path.join(a, b)`, including its normalisation */
    join: (string, string) -> string,
    /** `path.dirname(p)` */
    dirname: string -> string,
    /** `String(n)` for a JavaScript number */
    showNumber: real -> string
  )
}

=== FILE: prompting.dfy ===
/** Prompting: `buildPrompt`, the sampling options, `prompt` and the
    streaming accumulator of `promptStream`. */
module Prompting {
  import opened Wrappers
  import opened Values
  import opened Events
  import opened Orchestrator
  import Platform
  import MM = ModelManager

  const AssistantMarker: string := "\nAssistant: "
  const UserMarker: string := "User: "

  predicate StartsWith(p: string, prefix: string)
  {
    |p| >= |prefix| && p[..|prefix|] == prefix
  }

  predicate EndsWith(p: string, suffix: string)
  {
    |p| >= |suffix| && p[|p| - |suffix|..] == suffix
  }

  /** The user turn that ends every prompt. */
  function Turn(text: string): string
  {
    UserMarker + text + AssistantMarker
  }

  /** The system prompt is included unless the caller passes exactly
      `includeSystemPrompt: false`, and only when it is truthy. */
  predicate IncludesSystem(b: BeeBee, options: Object)
  {
    Get(options, "includeSystemPrompt") != Bool(false) && Truthy(Get(b.config, "systemPrompt"))
  }

  function SystemBlock(b: BeeBee): string
  {
    ToText(Get(b.config, "systemPrompt"), b.host.showNumber) + "\n\n"
  }

  function TagLine(b: BeeBee, bboxID: Value): string
  {
    "bboxid: " + ToText(bboxID, b.host.showNumber) + "\n"
  }

  /** What precedes the user turn: the system block, then the tag line. */
  function Header(b: BeeBee, options: Object, bboxID: Value): string
  {
    (if IncludesSystem(b, options) then SystemBlock(b) else "")
    + (if Truthy(bboxID) then TagLine(b, bboxID) else "")
  }

  /** `buildPrompt(text, options, bboxID)`: the system block, the tag line,
      then the user turn, each appended in that order. The prompt always ends
      with the user turn, starts with the system block when that is included,
      and is the bare turn, or the tag line and the turn, when it is not. */
  function BuildPrompt(b: BeeBee, text: string, options: Object, bboxID: Value): (r: string)
    ensures EndsWith(r, Turn(text))
    ensures IncludesSystem(b, options) ==> StartsWith(r, SystemBlock(b))
    ensures !IncludesSystem(b, options) && !Truthy(bboxID) ==> r == Turn(text)
    ensures !IncludesSystem(b, options) && Truthy(bboxID) ==> r == TagLine(b, bboxID) + Turn(text)
  {
    var withSystem := if IncludesSystem(b, options) then SystemBlock(b) else "";
    var tag := if Truthy(bboxID) then TagLine(b, bboxID) else "";
    var withTag := withSystem + tag;
    ThreePartLayout(withSystem, tag, Turn(text));
    withTag + Turn(text)
  }

  /** The header of a prompt, then its user turn. */
  lemma PromptSplits(b: BeeBee, text: string, options: Object, bboxID: Value)
    ensures BuildPrompt(b, text, options, bboxID) == Header(b, options, bboxID) + Turn(text)
  {
    var sys := if IncludesSystem(b, options) then SystemBlock(b) else "";
    var tag := if Truthy(bboxID) then TagLine(b, bboxID) else "";
    assert Header(b, options, bboxID) == sys + tag;
    assert BuildPrompt(b, text, options, bboxID) == sys + tag + Turn(text);
  }

  /** Where each part sits in a built prompt: the system block (when
      included) first, the tag line (for a truthy id) after it, and the user
      turn always last; with neither, the prompt is just the user turn. */
  lemma BuildPromptLayout(b: BeeBee, text: string, options: Object, bboxID: Value)
    ensures var p := BuildPrompt(b, text, options, bboxID);
      && |p| == |Header(b, options, bboxID)| + |Turn(text)|
      && p[|p| - |Turn(text)|..] == Turn(text)
      && (IncludesSystem(b, options) ==> p[..|SystemBlock(b)|] == SystemBlock(b))
      && (!IncludesSystem(b, options) && !Truthy(bboxID) ==> p == Turn(text))
      && (!IncludesSystem(b, options) && Truthy(bboxID) ==> p == TagLine(b, bboxID) + Turn(text))
      && (IncludesSystem(b, options) && Truthy(bboxID) ==>
            p[|SystemBlock(b)|..|SystemBlock(b)| + |TagLine(b, bboxID)|] == TagLine(b, bboxID))
  {
    var sys := if IncludesSystem(b, options) then SystemBlock(b) else "";
    var tag := if Truthy(bboxID) then TagLine(b, bboxID) else "";
    PromptSplits(b, text, options, bboxID);
    assert Header(b, options, bboxID) == sys + tag;
    ThreePartLayout(sys, tag, Turn(text));
  }

  /** Where the parts of a three-part string sit. */
  lemma ThreePartLayout(first: string, second: string, third: string)
    ensures var p := first + second + third;
      && |p| == |first| + |second| + |third|
      && p[|p| - |third|..] == third
      && p[..|first|] == first
      && p[|first|..|first| + |second|] == second
      && (first == "" ==> p == second + third)
      && (first == "" && second == "" ==> p == third)
  {
    var p := first + second + third;
    assert p == first + (second + third);
    assert p[..|first|] == first;
    assert p[|first|..|first| + |second|] == second;
    if first == "" {
      assert p == second + third;
    }
  }

  /** The user text read back out of a built prompt. */
  function UserText(b: BeeBee, options: Object, bboxID: Value, p: string): string
    requires |p| >= |Header(b, options, bboxID)| + |UserMarker| + |AssistantMarker|
  {
    p[|Header(b, options, bboxID)| + |UserMarker|..|p| - |AssistantMarker|]
  }

  /** The user text survives prompt construction: it can be read back, so
      two different texts never build the same prompt. */
  lemma UserTextRoundTrip(b: BeeBee, text: string, options: Object, bboxID: Value)
    ensures var p := BuildPrompt(b, text, options, bboxID);
      |p| >= |Header(b, options, bboxID)| + |UserMarker| + |AssistantMarker|
      && UserText(b, options, bboxID, p) == text
  {
    PromptSplits(b, text, options, bboxID);
    MiddleOfFour(Header(b, options, bboxID), UserMarker, text, AssistantMarker);
  }

  /** The third part of a four-part string sits between the first two and
      the last. */
  lemma MiddleOfFour(first: string, second: string, middle: string, last: string)
    ensures var p := first + (second + middle + last);
      |p| >= |first| + |second| + |last| && p[|first| + |second|..|p| - |last|] == middle
  {
    var p := first + (second + middle + last);
    assert p == (first + second) + middle + last;
  }

  /** With `includeSystemPrompt: false` the prompt is the tag line (for a
      truthy id) and the user turn: no system text at all. */
  lemma SuppressedSystemPrompt(b: BeeBee, text: string, options: Object, bboxID: Value)
    requires Get(options, "includeSystemPrompt") == Bool(false)
    ensures BuildPrompt(b, text, options, bboxID) ==
      (if Truthy(bboxID) then TagLine(b, bboxID) else "") + Turn(text)
  {
  }

  /** Each sampling option is the caller's value when truthy and the
      configured one otherwise, so an explicit `0` falls back too. */
  function SamplingFor(b: BeeBee, options: Object): (s: Sampling)
    ensures Truthy(Get(options, "temperature")) ==> s.temperature == Get(options, "temperature")
    ensures !Truthy(Get(options, "temperature")) ==> s.temperature == Get(b.config, "temperature")
    ensures Truthy(Get(options, "topP")) ==> s.topP == Get(options, "topP")
    ensures !Truthy(Get(options, "topP")) ==> s.topP == Get(b.config, "topP")
    ensures Truthy(Get(options, "maxTokens")) ==> s.maxTokens == Get(options, "maxTokens")
    ensures !Truthy(Get(options, "maxTokens")) ==> s.maxTokens == Get(b.config, "maxTokens")
  {
    Sampling(
      Or(Get(options, "temperature"), Get(b.config, "temperature")),
      Or(Get(options, "topP"), Get(b.config, "topP")),
      Or(Get(options, "maxTokens"), Get(b.config, "maxTokens")))
  }

  /** An option that is either falsy (so the configured value is used) or a
      number within `[lo, hi]`. */
  predicate OptionWithin(options: Object, key: string, lo: real, hi: real)
  {
    !Truthy(Get(options, key)) || (Get(options, key).Num? && lo <= Get(options, key).n <= hi)
  }

  /** A numeric configuration that passes validation, combined with options
      that are falsy or in range, yields sampling settings within the ranges
      the validation rules enforce. */
  lemma SamplingInRange(b: BeeBee, options: Object)
    requires Get(b.config, "contextSize").Num? && Get(b.config, "threads").Num?
    requires Get(b.config, "temperature").Num? && Get(b.config, "topP").Num? && Get(b.config, "maxTokens").Num?
    requires Config.Validate(b.config).valid
    requires OptionWithin(options, "temperature", 0.0, 2.0) && OptionWithin(options, "topP", 0.0, 1.0)
    requires !Truthy(Get(options, "maxTokens")) || (Get(options, "maxTokens").Num? && Get(options, "maxTokens").n >= 1.0)
    ensures var s := SamplingFor(b, options);
      && s.temperature.Num? && 0.0 <= s.temperature.n <= 2.0
      && s.topP.Num? && 0.0 <= s.topP.n <= 1.0
      && s.maxTokens.Num? && s.maxTokens.n >= 1.0
  {
    var c := b.config;
    Config.ValidIffInRange(c, Get(c, "contextSize").n, Get(c, "threads").n,
      Get(c, "temperature").n, Get(c, "topP").n, Get(c, "maxTokens").n);
  }

  /** The request `prompt`/`promptStream` send to the chat's session. */
  function GenerateRequest(b: BeeBee, text: string, options: Object, bboxID: Value, streaming: bool): Effect
  {
    Call(Generate(SessionKey(b, bboxID), BuildPrompt(b, text, options, bboxID), SamplingFor(b, options), streaming))
  }

  function MissingSession(): Failure
  {
    TypeError("Cannot read properties of undefined (reading 'prompt')")
  }

  /** `prompt(text, options, bboxID)`; `answer` is what the chat's session
      returns or throws. */
  function Prompt(b: BeeBee, text: string, options: Object, bboxID: Value, answer: Result<string, EngineError>): (s: Step<string>)
    ensures s.next == b
    ensures !b.isInitialized ==> s.effects == [] && s.result == Failure(NotInitialized)
    ensures s.result.Success? <==> b.isInitialized && SessionKey(b, bboxID) in b.sessions && answer.Success?
    ensures s.result.Success? ==>
      && s.result.value == answer.value
      && s.effects == [GenerateRequest(b, text, options, bboxID, false), Emit(Response(answer.value, bboxID))]
    ensures b.isInitialized && s.result.Failure? ==>
      && |s.effects| > 0
      && s.effects[|s.effects| - 1] == Emit(Error(Thrown(s.result.error)))
      && forall i :: 0 <= i < |s.effects| ==> !(s.effects[i].Emit? && s.effects[i].event.Response?)
    ensures b.isInitialized && SessionKey(b, bboxID) !in b.sessions ==>
      s == Step(b, [Emit(Error(Thrown(MissingSession())))], Failure(MissingSession()))
    ensures b.isInitialized && SessionKey(b, bboxID) in b.sessions && answer.Failure? ==>
      && s.result == Failure(EngineFailure(answer.error))
      && s.effects[0] == GenerateRequest(b, text, options, bboxID, false)
  {
    if !b.isInitialized then Step(b, [], Failure(NotInitialized))
    else if SessionKey(b, bboxID) !in b.sessions then
      Step(b, [Emit(Error(Thrown(MissingSession())))], Failure(MissingSession()))
    else
      var call := GenerateRequest(b, text, options, bboxID, false);
      match answer
      case Success(response) => Step(b, [call, Emit(Response(response, bboxID))], Success(response))
      case Failure(e) => Step(b, [call, Emit(Error(Thrown(EngineFailure(e))))], Failure(EngineFailure(e)))
  }

  /** A freshly constructed object whose model file is missing stays
      uninitialized after `initialize()`, so `prompt` then rejects without
      calling the engine or emitting anything. */
  lemma MissingModelRejectsPrompts(host: Platform.Host, source: ConfigSource, disk: MM.Disk, load: LoadAnswers,
                                   text: string, options: Object, bboxID: Value, answer: Result<string, EngineError>)
    requires New(host, source).Success? && !disk.present
    ensures var b := Initialize(New(host, source).value, disk, load).next;
      Prompt(b, text, options, bboxID, answer) == Step(b, [], Failure(NotInitialized))
  {
  }

  /** After `dispose()` every `prompt` rejects without effects until the
      next successful `initialize()`. */
  lemma DisposedRejectsPrompts(b: BeeBee, answers: DisposeAnswers,
                               text: string, options: Object, bboxID: Value, answer: Result<string, EngineError>)
    requires Dispose(b, answers).result.Success?
    ensures var d := Dispose(b, answers).next;
      Prompt(d, text, options, bboxID, answer) == Step(d, [], Failure(NotInitialized))
  {
  }

  /** After a successful `initialize()`, a prompt on a started chat session
      reaches the engine with the built prompt and reports its answer. */
  lemma ReadyPromptReachesEngine(b: BeeBee, disk: MM.Disk, load: LoadAnswers,
                                 text: string, options: Object, bboxID: Value, response: string)
    requires disk.present && load.llama.Success? && load.model.Success? && load.context.Success?
    requires SessionKey(b, bboxID) in b.sessions
    ensures var r := Initialize(b, disk, load).next;
      var s := Prompt(r, text, options, bboxID, Success(response));
      && s.result == Success(response)
      && s.effects[0] == Call(Generate(SessionKey(b, bboxID), BuildPrompt(r, text, options, bboxID), SamplingFor(r, options), false))
      && Emitted(s.effects) == [Response(response, bboxID)]
  {
    var r := Initialize(b, disk, load).next;
    assert r.isInitialized && r.sessions == b.sessions && r.host == b.host;
    assert SessionKey(r, bboxID) == SessionKey(b, bboxID);
    PromptOnReadySession(r, text, options, bboxID, response);
  }

  /** The session story end to end: after a successful `initialize()` and
      `startNewChatSession(id)`, `prompt` on that id reaches the session and
      returns its reply. */
  lemma StartedSessionAnswersPrompts(b: BeeBee, disk: MM.Disk, load: LoadAnswers, chatID: Value,
                                     sequence: Handle, session: Handle,
                                     text: string, options: Object, response: string)
    requires disk.present && load.llama.Success? && load.model.Success? && load.context.Success?
    ensures var r := Initialize(b, disk, load).next;
      var started := StartNewChatSession(r, chatID, Some(sequence), session);
      var s := Prompt(started.next, text, options, chatID, Success(response));
      && started.result.Success?
      && s.result == Success(response)
      && Emitted(s.effects) == [Response(response, chatID)]
  {
    var r := Initialize(b, disk, load).next;
    assert r.isInitialized && r.context.Some?;
    var started := StartNewChatSession(r, chatID, Some(sequence), session);
    assert started.result.Success?;
    var d := started.next;
    assert d == r.(sessions := r.sessions[SessionKey(r, chatID) := session]);
    assert SessionKey(d, chatID) == SessionKey(r, chatID);
    PromptOnReadySession(d, text, options, chatID, response);
  }

  /** A prompt on an initialized object with a session for the id returns
      the reply, sends the generation request first and emits only
      `response`. */
  lemma PromptOnReadySession(d: BeeBee, text: string, options: Object, bboxID: Value, response: string)
    requires d.isInitialized && SessionKey(d, bboxID) in d.sessions
    ensures var s := Prompt(d, text, options, bboxID, Success(response));
      && s.result == Success(response)
      && s.effects[0] == GenerateRequest(d, text, options, bboxID, false)
      && Emitted(s.effects) == [Response(response, bboxID)]
  {
    var s := Prompt(d, text, options, bboxID, Success(response));
    var request := GenerateRequest(d, text, options, bboxID, false);
    assert s.effects == [request] + [Emit(Response(response, bboxID))];
    RequestFirst(request, [Emit(Response(response, bboxID))]);
    ProjectionsOfOne(Emit(Response(response, bboxID)));
  }

  /** One value passed to the engine's token callback element: a token id
      (a JavaScript number) or anything else, already converted by `String`. */
  datatype TokenValue = TokenId(id: int) | TokenText(text: string)

  /** One invocation of the engine's token callback: a single value or an array. */
  datatype Delivery = Single(token: TokenValue) | Batch(tokens: seq<TokenValue>)

  function TokensOf(d: Delivery): seq<TokenValue>
  {
    match d
    case Single(t) => [t]
    case Batch(ts) => ts
  }

  /** A token's text: a numeric id goes through the model's detokenizer. */
  function TokenString(t: TokenValue, detokenize: seq<int> -> string): string
  {
    match t
    case TokenId(n) => detokenize([n])
    case TokenText(s) => s
  }

  function Strings(ts: seq<TokenValue>, detokenize: seq<int> -> string): (r: seq<string>)
    ensures |r| == |ts|
  {
    if ts == [] then []
    else Strings(ts[..|ts| - 1], detokenize) + [TokenString(ts[|ts| - 1], detokenize)]
  }

  /** Each element of a delivered array becomes its own fragment: a token id
      through the detokenizer, anything else as its text. */
  lemma {:induction false} StringsElementwise(ts: seq<TokenValue>, detokenize: seq<int> -> string)
    ensures forall i :: 0 <= i < |ts| ==> Strings(ts, detokenize)[i] == TokenString(ts[i], detokenize)
  {
    if ts != [] {
      var init := ts[..|ts| - 1];
      StringsElementwise(init, detokenize);
      assert Strings(ts, detokenize) == Strings(init, detokenize) + [TokenString(ts[|ts| - 1], detokenize)];
      forall i | 0 <= i < |ts|
        ensures Strings(ts, detokenize)[i] == TokenString(ts[i], detokenize)
      {
        if i < |init| {
          assert ts[i] == init[i];
        }
      }
    }
  }

  /** The fragments a sequence of deliveries yields, in order. */
  function Fragments(ds: seq<Delivery>, detokenize: seq<int> -> string): seq<string>
  {
    if ds == [] then []
    else Fragments(ds[..|ds| - 1], detokenize) + Strings(TokensOf(ds[|ds| - 1]), detokenize)
  }

  /** The reference fan-out: each fragment as a `token` event, followed by
      the callback when there is one. */
  function FanOut(fragments: seq<string>, bboxID: Value, hasCallback: bool): seq<Effect>
  {
    if fragments == [] then []
    else
      var f := fragments[|fragments| - 1];
      var base := FanOut(fragments[..|fragments| - 1], bboxID, hasCallback) + [Emit(Token(f, bboxID))];
      if hasCallback then base + [Notify(f, bboxID)] else base
  }

  /** What the engine does during one streaming generation: the callback
      invocations it makes, then its outcome. A successful outcome's own
      text is not used by `promptStream`. */
  datatype StreamAnswer = StreamAnswer(deliveries: seq<Delivery>, outcome: Result<string, EngineError>)

  lemma StringsStep(ts: seq<TokenValue>, j: nat, detokenize: seq<int> -> string)
    requires j < |ts|
    ensures Strings(ts[..j + 1], detokenize) == Strings(ts[..j], detokenize) + [TokenString(ts[j], detokenize)]
  {
    assert ts[..j + 1][..j] == ts[..j];
  }

  lemma FragmentsStep(ds: seq<Delivery>, i: nat, detokenize: seq<int> -> string)
    requires i < |ds|
    ensures Fragments(ds[..i + 1], detokenize) == Fragments(ds[..i], detokenize) + Strings(TokensOf(ds[i]), detokenize)
  {
    assert ds[..i + 1][..i] == ds[..i];
  }

  lemma FanOutStep(fragments: seq<string>, f: string, bboxID: Value, hasCallback: bool)
    ensures FanOut(fragments + [f], bboxID, hasCallback) ==
      FanOut(fragments, bboxID, hasCallback) + [Emit(Token(f, bboxID))]
      + (if hasCallback then [Notify(f, bboxID)] else [])
  {
    assert (fragments + [f])[..|fragments|] == fragments;
  }

  /** The fan-out emits each fragment once as a token and, with a callback,
      once to the callback, in the same order and all with the same tag. */
  lemma FanOutDelivers(fragments: seq<string>, bboxID: Value, hasCallback: bool)
    ensures TokenFragments(FanOut(fragments, bboxID, hasCallback)) == fragments
    ensures Notified(FanOut(fragments, bboxID, hasCallback)) == (if hasCallback then fragments else [])
    ensures TaggedWith(FanOut(fragments, bboxID, hasCallback), bboxID)
    ensures forall e :: e in Emitted(FanOut(fragments, bboxID, hasCallback)) ==> e.Token?
  {
    FanOutTokens(fragments, bboxID, hasCallback);
    FanOutNotified(fragments, bboxID, hasCallback);
    FanOutEmitsTokens(fragments, bboxID, hasCallback);
    FanOutTagged(fragments, bboxID, hasCallback);
  }

  /** The part of a fan-out's last fragment. */
  function FanOutOne(f: string, bboxID: Value, hasCallback: bool): seq<Effect>
  {
    [Emit(Token(f, bboxID))] + (if hasCallback then [Notify(f, bboxID)] else [])
  }

  lemma FanOutOneProjections(f: string, bboxID: Value, hasCallback: bool)
    ensures TokenFragments(FanOutOne(f, bboxID, hasCallback)) == [f]
    ensures Notified(FanOutOne(f, bboxID, hasCallback)) == (if hasCallback then [f] else [])
    ensures Emitted(FanOutOne(f, bboxID, hasCallback)) == [Token(f, bboxID)]
    ensures TaggedWith(FanOutOne(f, bboxID, hasCallback), bboxID)
  {
    var head := [Emit(Token(f, bboxID))];
    ProjectionsOfOne(Emit(Token(f, bboxID)));
    if hasCallback {
      assert FanOutOne(f, bboxID, hasCallback) == head + [Notify(f, bboxID)];
      ProjectionsSnoc(head, Notify(f, bboxID));
    } else {
      assert FanOutOne(f, bboxID, hasCallback) == head;
    }
  }

  /** A non-empty fan-out is the fan-out of all but the last fragment,
      then the last fragment's part. */
  lemma FanOutUnfold(fragments: seq<string>, bboxID: Value, hasCallback: bool)
    requires fragments != []
    ensures FanOut(fragments, bboxID, hasCallback) ==
      FanOut(fragments[..|fragments| - 1], bboxID, hasCallback)
      + FanOutOne(fragments[|fragments| - 1], bboxID, hasCallback)
  {
  }

  lemma {:induction false} FanOutTokens(fragments: seq<string>, bboxID: Value, hasCallback: bool)
    ensures TokenFragments(FanOut(fragments, bboxID, hasCallback)) == fragments
  {
    if fragments != [] {
      var init := fragments[..|fragments| - 1];
      var f := fragments[|fragments| - 1];
      var base := FanOut(init, bboxID, hasCallback) + [Emit(Token(f, bboxID))];
      FanOutTokens(init, bboxID, hasCallback);
      ProjectionsSnoc(FanOut(init, bboxID, hasCallback), Emit(Token(f, bboxID)));
      ProjectionsSnoc(base, Notify(f, bboxID));
      assert TokenFragments(base) == init + [f];
      assert init + [f] == fragments;
    }
  }

  lemma FanOutNotified(fragments: seq<string>, bboxID: Value, hasCallback: bool)
    ensures Notified(FanOut(fragments, bboxID, hasCallback)) == (if hasCallback then fragments else [])
  {
    if hasCallback {
      FanOutNotifiesAll(fragments, bboxID);
    } else {
      FanOutNotifiesNone(fragments, bboxID);
    }
  }

  lemma {:induction false} FanOutNotifiesAll(fragments: seq<string>, bboxID: Value)
    ensures Notified(FanOut(fragments, bboxID, true)) == fragments
  {
    if fragments != [] {
      var init := fragments[..|fragments| - 1];
      var f := fragments[|fragments| - 1];
      var rest := FanOut(init, bboxID, true);
      var base := rest + [Emit(Token(f, bboxID))];
      FanOutNotifiesAll(init, bboxID);
      assert FanOut(fragments, bboxID, true) == base + [Notify(f, bboxID)];
      ProjectionsSnoc(rest, Emit(Token(f, bboxID)));
      ProjectionsSnoc(base, Notify(f, bboxID));
      assert Notified(base + [Notify(f, bboxID)]) == init + [f];
      assert init + [f] == fragments;
    }
  }

  lemma {:induction false} FanOutNotifiesNone(fragments: seq<string>, bboxID: Value)
    ensures Notified(FanOut(fragments, bboxID, false)) == []
  {
    if fragments != [] {
      var init := fragments[..|fragments| - 1];
      var f := fragments[|fragments| - 1];
      var rest := FanOut(init, bboxID, false);
      FanOutNotifiesNone(init, bboxID);
      assert FanOut(fragments, bboxID, false) == rest + [Emit(Token(f, bboxID))];
      ProjectionsSnoc(rest, Emit(Token(f, bboxID)));
    }
  }

  lemma {:induction false} FanOutEmitsTokens(fragments: seq<string>, bboxID: Value, hasCallback: bool)
    ensures forall e :: e in Emitted(FanOut(fragments, bboxID, hasCallback)) ==> e.Token?
  {
    if fragments != [] {
      var init := fragments[..|fragments| - 1];
      var f := fragments[|fragments| - 1];
      var base := FanOut(init, bboxID, hasCallback) + [Emit(Token(f, bboxID))];
      FanOutEmitsTokens(init, bboxID, hasCallback);
      ProjectionsSnoc(FanOut(init, bboxID, hasCallback), Emit(Token(f, bboxID)));
      ProjectionsSnoc(base, Notify(f, bboxID));
      assert Emitted(base) == Emitted(FanOut(init, bboxID, hasCallback)) + [Token(f, bboxID)];
    }
  }

  lemma {:induction false} FanOutTagged(fragments: seq<string>, bboxID: Value, hasCallback: bool)
    ensures TaggedWith(FanOut(fragments, bboxID, hasCallback), bboxID)
  {
    if fragments != [] {
      var init := fragments[..|fragments| - 1];
      var f := fragments[|fragments| - 1];
      FanOutTagged(init, bboxID, hasCallback);
      FanOutUnfold(fragments, bboxID, hasCallback);
      FanOutOneProjections(f, bboxID, hasCallback);
      TaggedAppend(FanOut(init, bboxID, hasCallback), FanOutOne(f, bboxID, hasCallback), bboxID);
    }
  }

  /** The log of a streaming call that reached the engine: the request, the
      fan-out, then one closing event that is not a token. */
  lemma StreamLog(request: Effect, fragments: seq<string>, bboxID: Value, hasCallback: bool, last: Effect)
    requires request.Call? && last.Emit? && !last.event.Token?
    requires last.event.Response? ==> last.event.bboxID == bboxID
    ensures var log := [request] + FanOut(fragments, bboxID, hasCallback) + [last];
      && TokenFragments(log) == fragments
      && Notified(log) == (if hasCallback then fragments else [])
      && TaggedWith(log, bboxID)
      && last.event in Emitted(log)
      && forall e :: e in Emitted(log) && e != last.event ==> e.Token?
  {
    var fan := FanOut(fragments, bboxID, hasCallback);
    var body := [request] + fan;
    FanOutDelivers(fragments, bboxID, hasCallback);
    RequestFirst(request, fan);
    ProjectionsSnoc(body, last);
    var events := Emitted(body + [last]);
    assert events == Emitted(fan) + [last.event];
    assert events[|events| - 1] == last.event;
    forall e | e in events && e != last.event
      ensures e.Token?
    {
      assert e in Emitted(fan);
    }
    StreamLogTagged(request, fan, bboxID, last);
  }

  /** A call in front of a log changes none of its projections. */
  lemma RequestFirst(request: Effect, effects: seq<Effect>)
    requires request.Call?
    ensures Emitted([request] + effects) == Emitted(effects)
    ensures TokenFragments([request] + effects) == TokenFragments(effects)
    ensures Notified([request] + effects) == Notified(effects)
  {
    ProjectionsOfOne(request);
    ProjectionsAppend([request], effects);
    assert [] + Emitted(effects) == Emitted(effects);
    assert [] + TokenFragments(effects) == TokenFragments(effects);
    assert [] + Notified(effects) == Notified(effects);
  }

  lemma StreamLogTagged(request: Effect, fan: seq<Effect>, bboxID: Value, last: Effect)
    requires request.Call? && last.Emit? && !last.event.Token?
    requires last.event.Response? ==> last.event.bboxID == bboxID
    requires TaggedWith(fan, bboxID)
    ensures TaggedWith([request] + fan + [last], bboxID)
  {
    assert TaggedWith([request], bboxID);
    assert TaggedWith([last], bboxID);
    TaggedAppend([request], fan, bboxID);
    TaggedAppend([request] + fan, [last], bboxID);
  }

  /** One token through the inner loop of the accumulator: appending it
      to the response and its part to the log keeps both in step with the
      fragments seen so far. */
  lemma AccumulateToken(request: Effect, done: seq<string>, tokenStr: string, bboxID: Value, hasCallback: bool,
                        response: string, effects: seq<Effect>)
    requires response == Concat(done)
    requires effects == [request] + FanOut(done, bboxID, hasCallback)
    ensures response + tokenStr == Concat(done + [tokenStr])
    ensures effects + FanOutOne(tokenStr, bboxID, hasCallback) == [request] + FanOut(done + [tokenStr], bboxID, hasCallback)
  {
    ConcatAppend(done, [tokenStr]);
    assert [tokenStr][..0] == [];
    FanOutStep(done, tokenStr, bboxID, hasCallback);
  }

  /** The engine's token callback over all deliveries of one generation:
      the accumulated response and the log after the generate request. */
  method Accumulate(ds: seq<Delivery>, detokenize: seq<int> -> string, bboxID: Value, hasCallback: bool,
                    request: Effect) returns (fullResponse: string, effects: seq<Effect>)
    ensures fullResponse == Concat(Fragments(ds, detokenize))
    ensures effects == [request] + FanOut(Fragments(ds, detokenize), bboxID, hasCallback)
  {
    fullResponse := "";
    effects := [request];
    var i := 0;
    while i < |ds|
      invariant 0 <= i <= |ds|
      invariant fullResponse == Concat(Fragments(ds[..i], detokenize))
      invariant effects == [request] + FanOut(Fragments(ds[..i], detokenize), bboxID, hasCallback)
    {
      ghost var before := Fragments(ds[..i], detokenize);
      fullResponse, effects := AccumulateDelivery(TokensOf(ds[i]), detokenize, bboxID, hasCallback,
                                                  request, before, fullResponse, effects);
      FragmentsStep(ds, i, detokenize);
      i := i + 1;
    }
    assert ds[..i] == ds;
  }

  /** One invocation of the engine's token callback: each element of the
      delivered array, in order, is turned into text, appended, emitted and
      passed on. */
  method AccumulateDelivery(tokenArray: seq<TokenValue>, detokenize: seq<int> -> string, bboxID: Value,
                            hasCallback: bool, request: Effect, ghost before: seq<string>,
                            response0: string, effects0: seq<Effect>)
    returns (fullResponse: string, effects: seq<Effect>)
    requires response0 == Concat(before)
    requires effects0 == [request] + FanOut(before, bboxID, hasCallback)
    ensures fullResponse == Concat(before + Strings(tokenArray, detokenize))
    ensures effects == [request] + FanOut(before + Strings(tokenArray, detokenize), bboxID, hasCallback)
  {
    fullResponse, effects := response0, effects0;
    var j := 0;
    ghost var done := before;
    assert before + Strings(tokenArray[..0], detokenize) == before by {
      assert tokenArray[..0] == [];
    }
    while j < |tokenArray|
      invariant 0 <= j <= |tokenArray|
      invariant done == before + Strings(tokenArray[..j], detokenize)
      invariant fullResponse == Concat(done)
      invariant effects == [request] + FanOut(done, bboxID, hasCallback)
    {
      var tokenStr := TokenString(tokenArray[j], detokenize);
      AccumulateToken(request, done, tokenStr, bboxID, hasCallback, fullResponse, effects);
      StringsStep(tokenArray, j, detokenize);
      assert done + [tokenStr] == before + Strings(tokenArray[..j + 1], detokenize);
      ghost var grown := effects + FanOutOne(tokenStr, bboxID, hasCallback);
      fullResponse := fullResponse + tokenStr;
      effects := effects + [Emit(Token(tokenStr, bboxID))];
      if hasCallback {
        effects := effects + [Notify(tokenStr, bboxID)];
      }
      assert effects == grown;
      done := done + [tokenStr];
      j := j + 1;
    }
    assert tokenArray[..j] == tokenArray;
  }

  /** What `promptStream` produces, stated without its loops: nothing when
      uninitialized; a `TypeError` for a chat without a session; otherwise
      the generate request, the fan-out of every fragment, and a closing
      `response` (the concatenated fragments) or `error`. */
  function StreamReference(b: BeeBee, text: string, options: Object, hasCallback: bool, bboxID: Value,
                           answer: StreamAnswer, detokenize: seq<int> -> string): Step<string>
  {
    if !b.isInitialized then Step(b, [], Failure(NotInitialized))
    else if SessionKey(b, bboxID) !in b.sessions then
      Step(b, [Emit(Error(Thrown(MissingSession())))], Failure(MissingSession()))
    else
      StreamTail(b, GenerateRequest(b, text, options, bboxID, true),
                 Fragments(answer.deliveries, detokenize), bboxID, hasCallback, answer.outcome)
  }

  /** A streaming call once the request is sent: the fan-out of the
      fragments, then `response` with their concatenation or `error`. */
  function StreamTail(b: BeeBee, request: Effect, fragments: seq<string>, bboxID: Value, hasCallback: bool,
                      outcome: Result<string, EngineError>): Step<string>
  {
    var body := [request] + FanOut(fragments, bboxID, hasCallback);
    match outcome
    case Success(_) => Step(b, body + [Emit(Response(Concat(fragments), bboxID))], Success(Concat(fragments)))
    case Failure(e) => Step(b, body + [Emit(Error(Thrown(EngineFailure(e))))], Failure(EngineFailure(e)))
  }

  /** A streaming call rejects before any call or event when uninitialized,
      and succeeds exactly when a started session's generation succeeds. */
  lemma StreamOutcome(b: BeeBee, text: string, options: Object, hasCallback: bool, bboxID: Value,
                      answer: StreamAnswer, detokenize: seq<int> -> string)
    ensures var s := StreamReference(b, text, options, hasCallback, bboxID, answer, detokenize);
      && s.next == b
      && (!b.isInitialized ==> s.effects == [] && s.result == Failure(NotInitialized))
      && (s.result.Success? <==>
            b.isInitialized && SessionKey(b, bboxID) in b.sessions && answer.outcome.Success?)
  {
  }

  /** The token events of a streaming call carry the normalised fragments in
      order, the callback sees the same ones, and everything is tagged with
      the call's id. On success the result and the closing `response` event
      are the concatenation of the token fragments; on failure no `response`
      is emitted, `error` is emitted last and the engine's error is rethrown. */
  lemma StreamProperties(b: BeeBee, text: string, options: Object, hasCallback: bool, bboxID: Value,
                         answer: StreamAnswer, detokenize: seq<int> -> string)
    ensures var s := StreamReference(b, text, options, hasCallback, bboxID, answer, detokenize);
      && TokenFragments(s.effects) ==
           (if b.isInitialized && SessionKey(b, bboxID) in b.sessions
            then Fragments(answer.deliveries, detokenize) else [])
      && Notified(s.effects) == (if hasCallback then TokenFragments(s.effects) else [])
      && TaggedWith(s.effects, bboxID)
      && (s.result.Success? ==>
            && s.result.value == Concat(TokenFragments(s.effects))
            && s.effects[|s.effects| - 1] == Emit(Response(s.result.value, bboxID)))
      && (s.result.Failure? ==> forall e :: e in Emitted(s.effects) ==> !e.Response?)
      && (b.isInitialized && SessionKey(b, bboxID) in b.sessions && answer.outcome.Failure? ==>
            && s.result == Failure(EngineFailure(answer.outcome.error))
            && s.effects[|s.effects| - 1] == Emit(Error(Thrown(s.result.error))))
  {
    var s := StreamReference(b, text, options, hasCallback, bboxID, answer, detokenize);
    if !b.isInitialized {
    } else if SessionKey(b, bboxID) !in b.sessions {
      ProjectionsOfOne(s.effects[0]);
    } else {
      StreamedLog(b, GenerateRequest(b, text, options, bboxID, true),
                  Fragments(answer.deliveries, detokenize), bboxID, hasCallback, answer.outcome);
    }
  }

  lemma StreamedLog(b: BeeBee, request: Effect, fragments: seq<string>, bboxID: Value, hasCallback: bool,
                    outcome: Result<string, EngineError>)
    requires request.Call?
    ensures var s := StreamTail(b, request, fragments, bboxID, hasCallback, outcome);
      && TokenFragments(s.effects) == fragments
      && Notified(s.effects) == (if hasCallback then fragments else [])
      && TaggedWith(s.effects, bboxID)
      && (s.result.Success? ==>
            && s.result.value == Concat(fragments)
            && s.effects[|s.effects| - 1] == Emit(Response(s.result.value, bboxID)))
      && (s.result.Failure? ==> forall e :: e in Emitted(s.effects) ==> !e.Response?)
  {
    var body := [request] + FanOut(fragments, bboxID, hasCallback);
    match outcome {
      case Success(_) =>
        StreamLog(request, fragments, bboxID, hasCallback, Emit(Response(Concat(fragments), bboxID)));
      case Failure(e) =>
        StreamLog(request, fragments, bboxID, hasCallback, Emit(Error(Thrown(EngineFailure(e)))));
    }
  }

  /** `promptStream(text, options, onToken, bboxID)`, with the engine's
      callback invocations as a sequence of deliveries. Every delivery is
      flattened and each element turned into text; each fragment is
      appended to the response, emitted as a `token` event and passed to the
      callback (when there is one), in that order. The result and the
      `response` event carry the concatenation of the fragments; a failing
      generation emits `error` instead and rethrows. */
  method PromptStream(b: BeeBee, text: string, options: Object, hasCallback: bool, bboxID: Value,
                      answer: StreamAnswer, detokenize: seq<int> -> string) returns (s: Step<string>)
    ensures s == StreamReference(b, text, options, hasCallback, bboxID, answer, detokenize)
  {
    if !b.isInitialized {
      return Step(b, [], Failure(NotInitialized));
    }
    var key := SessionKey(b, bboxID);
    if key !in b.sessions {
      return Step(b, [Emit(Error(Thrown(MissingSession())))], Failure(MissingSession()));
    }
    var request := GenerateRequest(b, text, options, bboxID, true);
    var fullResponse, effects := Accumulate(answer.deliveries, detokenize, bboxID, hasCallback, request);
    match answer.outcome {
      case Success(_) =>
        s := Step(b, effects + [Emit(Response(fullResponse, bboxID))], Success(fullResponse));
      case Failure(e) =>
        s := Step(b, effects + [Emit(Error(Thrown(EngineFailure(e))))], Failure(EngineFailure(e)));
    }
  }
}

=== FILE: values.dfy ===
/** The fragment of JavaScript's value semantics the program relies on:
    property reads that default to `undefined`, truthiness (`if (x)`, `!x`,
    `a || b`), relational comparison against a number and string conversion. */
module Values {
  import opened Wrappers

  /** A primitive JavaScript value. Numbers are reals: NaN and the
      infinities are not represented as values (NaN only arises from
      conversion, see `ToNumber`). */
  datatype Value = Undefined | Null | Bool(b: bool) | Num(n: real) | Str(s: string)

  /** A plain object: own enumerable properties with primitive values. */
  type Object = map<string, Value>

  /** `o[k]`: a missing property reads as `undefined`. */
  function Get(o: Object, k: string): Value
  {
    if k in o then o[k] else Undefined
  }

  /** ToBoolean: `false`, `0`, `""`, `null` and `undefined` are falsy. */
  predicate Truthy(v: Value)
  {
    match v
    case Undefined => false
    case Null => false
    case Bool(b) => b
    case Num(n) => n != 0.0
    case Str(s) => s != ""
  }

  /** `a || b` returns its left operand when that is truthy and its right one otherwise. */
  function Or(a: Value, b: Value): (r: Value)
    ensures Truthy(r) <==> Truthy(a) || Truthy(b)
    ensures r == a || r == b
  {
    if Truthy(a) then a else b
  }

  predicate IsDigit(c: char)
  {
    '0' <= c <= '9'
  }

  /** The value of a non-empty string of decimal digits. */
  function DigitsValue(s: string): (r: nat)
    requires forall i :: 0 <= i < |s| ==> IsDigit(s[i])
  {
    if s == [] then 0
    else
      assert IsDigit(s[|s| - 1]);
      10 * DigitsValue(s[..|s| - 1]) + (s[|s| - 1] as int - '0' as int)
  }

  /** ToNumber; `None` stands for NaN. */
  function ToNumber(v: Value): Option<real>
  {
    match v
    case Undefined => None
    case Null => Some(0.0)
    case Bool(b) => Some(if b then 1.0 else 0.0)
    case Num(n) => Some(n)
    case Str(s) =>
      if s == "" then Some(0.0)
      else if forall i :: 0 <= i < |s| ==> IsDigit(s[i]) then Some(DigitsValue(s) as real)
      else None
  }

  /** `v < k` for a number literal `k`: false whenever `v` converts to NaN. */
  predicate LessThan(v: Value, k: real)
  {
    match ToNumber(v)
    case None => false
    case Some(x) => x < k
  }

  /** `v > k` for a number literal `k`: false whenever `v` converts to NaN. */
  predicate GreaterThan(v: Value, k: real)
  {
    match ToNumber(v)
    case None => false
    case Some(x) => x > k
  }

  /** `String(v)`, also the text a template literal inserts and the key a
      property access uses. */
  function ToText(v: Value, showNumber: real -> string): string
  {
    match v
    case Undefined => "undefined"
    case Null => "null"
    case Bool(b) => if b then "true" else "false"
    case Num(n) => showNumber(n)
    case Str(s) => s
  }

  /** A value that converts to NaN is neither below nor above any bound, so
      no range check written as `v < lo || v > hi` rejects it. */
  lemma NaNPassesRangeChecks(v: Value, lo: real, hi: real)
    requires ToNumber(v).None?
    ensures !LessThan(v, lo) && !GreaterThan(v, hi)
  {
  }
}

=== FILE: wrappers.dfy ===
/** Failure-carrying result types shared by the model. */
module Wrappers {

  /** A value that may be absent: JavaScript's `undefined`/`null` where the
      program reads an optional datum. */
  datatype Option<+T> = None | Some(value: T)

  /** The outcome of an operation that either returns or throws. */
  datatype Result<+T, +E> = Success(value: T) | Failure(error: E)
}
